=== FILE: README.md ===
# Screen recorder: the recording engine and the control dock

A Chrome extension injects a floating control dock into the page. The dock
records the screen, with the microphone as an option, and opens the result in
a new tab. This project models the two parts of it that hold logic. Both are
proved in Dafny.

- **The recording engine** is the `useScreenRecorder` hook.
  - It looks up the capture size and bitrate for the chosen resolution.
  - It acquires the screen and the microphone.
  - It paints the screen's video, letterboxed, onto a canvas of that size.
  - It records the canvas video together with the screen audio and the
    microphone audio.
  - It negotiates a mime type. For webm it is VP9 webm when supported, else
    plain webm. For mp4 it is the first supported entry of a four-entry list
    (two `video/mp4` codec types, plain `video/mp4` and a Matroska/avc1 type),
    else plain webm.
  - It buffers the encoder's non-empty chunks.
  - It drives the status `idle → recording ⇄ paused → preview`, with a
    one-second clock.
  - On stop, or when the user ends the screen share, it builds the blob from
    the buffer once the encoder's stop event arrives. It then stops the
    recorded stream's tracks and lets go of the hidden video, the draw loop
    and the clock. The screen's own video track is not among the tracks it
    stops.
- **The control dock** shows:
  - the `m:ss` timer and the status word;
  - the buttons that fit the status;
  - a settings popup, placed above or below the dock and aligned to its left
    or right edge.

  The dock can also be dragged, clamped to the viewport.

Layout:

- `wrappers.dfy`: `Option`.
- `numbers.dfy`: `Math.min` and `Math.max` on reals.
- `media.dfy`: tracks, chunks, blobs, how the recorded stream is assembled,
  and the concatenation of the chunk buffer.
- `media_config.dfy`: the resolution table and mime-type negotiation.
- `compositor.dfy`: the letterbox rule of the draw loop.
- `time_format.dfy`: `formatTime` and its inverse.
- `session.dfy`: the engine as pure step functions over one `Engine` value.
  This is the specification. It also holds the session invariant
  `Consistent` and the lemmas about runs of the engine.
- `recorder.dfy`: the hook as the class `ScreenRecorder`. Its fields are the
  hook's state and refs, and each method is proved to perform the matching
  step of `Session`.
- `dock.dfy`: the dock's labels, buttons, popup placement and drag bounds,
  and the class `DockState` with the drag handlers.

Browser objects are abstracted as follows:

- A stream is a list of tracks.
- A track is "live" until something stops it.
- Tracks are compared as values. Each acquisition is assumed to bring fresh
  tracks, as the browser creates new track objects for each capture.
- The encoder records the screen video track that its start attached the
  end-of-share handler to. Ending a track is a step that names the track.
- The MediaRecorder is its state (`inactive`, `recording` or `paused`)
  together with what its handlers captured.
- Every answer the browser gives during a start is an input, an
  `Acquisition`:
  - the screen tracks, or `None` on refusal;
  - the microphone tracks, or `None` on refusal;
  - the canvas tracks;
  - `isTypeSupported`;
  - whether `video.play()` throws;
  - whether `new MediaRecorder` throws.
  - Whether the screen stream has a video track is read from the screen
    tracks: without one, attaching the end-of-share handler throws.
- Timer ticks, data chunks and the stop event are separate steps, in the
  order the browser delivers them.
- The mime type the encoder reports in its stop event is an input of that
  step. It is not tied to the mime type negotiated at start, which the model
  records in `Encoder.mime`.

## Model

| member | source | states |
|---|---|---|
| MediaConfig.GetConstraints | src/hooks/useScreenRecorder.js:42-58 | 720p gives 1280×720 at 2,500,000 bps, 4k gives 3840×2160 at 15,000,000 bps, and 1080p or any other key gives 1920×1080 at 8,000,000 bps; the frame rate passes through unchanged |
| MediaConfig.ConstraintsAreWidescreen | src/hooks/useScreenRecorder.js:43-48 | every resolution the table can yield is 16:9 |
| MediaConfig.FirstIndex | src/hooks/useScreenRecorder.js:140 | the index of the first supported entry: it is supported and no earlier entry is; absent exactly when no entry is supported |
| MediaConfig.Find | src/hooks/useScreenRecorder.js:140 | `find` yields the first supported entry of the list, or nothing exactly when no entry is supported |
| MediaConfig.SelectMime | src/hooks/useScreenRecorder.js:137-146 | for mp4 the mime is the first supported entry of the four-entry list in list order, else `video/webm`, and the warning is raised exactly when no entry is supported; any other format gets vp9 webm if supported, else plain webm, and no warning |
| MediaConfig.AnySatisfies | src/hooks/useScreenRecorder.js:141 | `some` holds exactly when an entry of the list is supported |
| MediaConfig.FindFailsIffNoneSupported | src/hooks/useScreenRecorder.js:140-141 | the `find` and the `some` over the list agree: `find` fails exactly when `some` is false |
| MediaConfig.Mp4PrefersH264 | src/hooks/useScreenRecorder.js:139-140 | when `video/mp4;codecs=h264` is supported it is chosen, whatever else is |
| MediaConfig.Mp4FallsThroughToMatroska | src/hooks/useScreenRecorder.js:139-140 | when only the Matroska entry is supported, it is chosen, with no warning |
| MediaConfig.Mp4FallbackIsPlainWebm | src/hooks/useScreenRecorder.js:140-143 | an unsupported mp4 falls back to plain `video/webm`, even when VP9 webm is supported |
| Compositor.Letterbox | src/hooks/useScreenRecorder.js:113-122 | with both source dimensions positive, the drawn rectangle fits the canvas, is centred (`2x + w == cw`, `2y + h == ch`), fills the width or the height, and keeps the source's aspect ratio; with either dimension 0 nothing is drawn |
| Compositor.ScaledFits | src/hooks/useScreenRecorder.js:116-118 | scaling by the smaller ratio stays inside the canvas and reaches one of its edges |
| Compositor.PillarboxExample | src/hooks/useScreenRecorder.js:116-121 | 640×480 into 1920×1080 is drawn at (240, 0) with size 1440×1080 |
| Compositor.SameAspectFillsCanvas | src/hooks/useScreenRecorder.js:116-121 | a source with the canvas's aspect ratio fills the whole canvas |
| Media.OfKind | src/hooks/useScreenRecorder.js:129-131 | `getVideoTracks`/`getAudioTracks` select exactly the stream's tracks of that kind |
| Media.Combined | src/hooks/useScreenRecorder.js:128-134 | the recorded stream holds exactly the canvas's video tracks, the screen's audio tracks and the microphone's audio tracks (when the microphone was obtained), with the video tracks first |
| Media.KeepNonEmpty | src/hooks/useScreenRecorder.js:153 | the buffer keeps exactly the chunks of positive size and never grows beyond the arrivals |
| Media.KeepNonEmptyConcat | src/hooks/useScreenRecorder.js:153 | filtering arrivals in two batches equals filtering them all at once, so order is preserved |
| Media.KeepNonEmptyAppend | src/hooks/useScreenRecorder.js:153 | one more arrival extends the buffer by that chunk exactly when it is non-empty |
| Media.FlattenAppend | src/hooks/useScreenRecorder.js:153-157 | pushing a chunk appends its bytes to the eventual blob |
| Media.FlattenConcat | src/hooks/useScreenRecorder.js:157 | the blob of two batches of chunks is the blob of the first followed by that of the second |
| Media.FlattenKeepNonEmpty | src/hooks/useScreenRecorder.js:153-157 | dropping the empty chunks does not change the blob's bytes |
| Media.FlattenCovers | src/hooks/useScreenRecorder.js:157 | the blob is at least as long as every chunk in it |
| Media.MakeBlob | src/hooks/useScreenRecorder.js:156-157 | the blob's type is the encoder's reported mime when non-empty, else `video/<format>`, and is never empty |
| TimeFormat.FormatTime | src/components/ControlDock.jsx:32-36 | the label is minutes, a colon, then two digits; the minutes read back as `s / 60` and the seconds as `s % 60`; the minutes have no leading zero unless they are the single digit 0 |
| TimeFormat.Decimal | src/components/ControlDock.jsx:35 | `toString` of a whole number gives decimal digits without a leading zero, one digit exactly for values below 10 |
| TimeFormat.PadStart2 | src/components/ControlDock.jsx:35 | `padStart(2, '0')` leaves a string of two or more characters alone and otherwise left-fills it with zeros to length two |
| TimeFormat.FormatTimeRoundTrip | src/components/ControlDock.jsx:32-36 | reading the label back gives the seconds: `ParseTime(FormatTime(s)) == Some(s)` |
| TimeFormat.FormatTimeInjective | src/components/ControlDock.jsx:32-36 | different durations give different labels |
| TimeFormat.FormatTimeExamples | src/components/ControlDock.jsx:32-36 | 0 gives "0:00", 65 gives "1:05" and 600 gives "10:00" |
| Session.InitialConsistent | src/hooks/useScreenRecorder.js:4-19 | the hook starts idle with time 0, no error and no blob, no session under way, and satisfies the session invariant |
| Session.StartKeepsConsistent | src/hooks/useScreenRecorder.js:60-181 | a start with no session under way and no stop event pending keeps the invariant, whichever way it ends |
| Session.StepsKeepConsistent | src/hooks/useScreenRecorder.js:153-207 | stop, screen revocation, an encoder fault, pause, resume, a tick, a data chunk, a frame and the stop event each keep the invariant |
| Session.ResetKeepsConsistent | src/hooks/useScreenRecorder.js:209-214 | reset with no session under way keeps the invariant |
| Session.StartScreenDenied | src/hooks/useScreenRecorder.js:60-180 | a refused screen leaves the status idle with "Failed to start recording." and the blob cleared, and acquires nothing |
| Session.StartSucceeds | src/hooks/useScreenRecorder.js:60-174 | a start whose screen is granted and has a video track, whose video plays and whose encoder is created is recording from 0 with the timer running, with a fresh encoder holding an empty buffer, the negotiated mime type and the resolution's bitrate, its end-of-share handler attached to the screen's first video track, the combined stream, and a canvas of the resolution's size; the error is the latest warning raised |
| Session.MicDeniedStillRecords | src/hooks/useScreenRecorder.js:81-94 | a refused microphone sets its warning but the session records, with the screen's audio only |
| Session.StartWithoutScreenVideoFails | src/hooks/useScreenRecorder.js:148-180 | a screen stream without a video track makes the start fail after the encoder was created: idle with "Failed to start recording.", the never-started encoder installed with an empty buffer, and the stream, the screen's tracks, the hidden video and the draw loop all kept |
| Session.StartLateFailureKeepsReferences | src/hooks/useScreenRecorder.js:103-180 | a start that fails after the screen was acquired reports the failure but keeps the screen's tracks live and the hidden video held, and also the stream and the draw loop when the encoder could not be created |
| Session.PauseFreezesTime | src/hooks/useScreenRecorder.js:191-198 | pausing a recording session makes it paused, stops the timer and keeps the time |
| Session.PauseResumeRoundTrip | src/hooks/useScreenRecorder.js:191-207 | pause then resume gives back exactly the recording state |
| Session.PauseResumeGuards | src/hooks/useScreenRecorder.js:191-207 | pause without a recording encoder changes nothing, and resume without a paused encoder changes nothing |
| Session.TickAddsOne | src/hooks/useScreenRecorder.js:174 | a tick adds exactly one second and changes nothing else |
| Session.RunDuringSession | src/hooks/useScreenRecorder.js:153-207 | through any sequence of ticks, pauses, resumes and data events a session stays consistent and under way, time never decreases, and the held resources do not change |
| Session.RunBuffersNonEmptyInOrder | src/hooks/useScreenRecorder.js:152-153 | after any sequence of events the buffer is the old buffer followed by the non-empty data chunks in arrival order |
| Session.StopIdempotent | src/hooks/useScreenRecorder.js:165-189 | a second stop, or the end of any track after a stop, changes nothing, and a stop after the current share ended changes nothing |
| Session.RevocationMatchesStop | src/hooks/useScreenRecorder.js:155-189 | ending the current session's screen share gives the same final state as the Stop button except `isPaused`, and exactly the same state from a recording session |
| Session.OtherTrackEndedChangesNothing | src/hooks/useScreenRecorder.js:165-169 | the end of a track that is not the one the current encoder's handler is attached to changes nothing |
| Session.OnlyOwnShareEndsSession | src/hooks/useScreenRecorder.js:149-169 | after a successful start and any callbacks, the end of the session's own screen video track stops the encoder, and the end of a track outside its screen stream, such as an earlier session's share, changes nothing |
| Session.ReleaseIdempotent | src/hooks/useScreenRecorder.js:21-36 | after release no stream, video, frame or timer is held, and a second release changes nothing |
| Session.ReleaseEndsDrawLoop | src/hooks/useScreenRecorder.js:109-124 | after release the next run of `draw` paints nothing and schedules nothing |
| Session.ReleaseStopsCombinedTracks | src/hooks/useScreenRecorder.js:22-25 | release stops exactly the combined stream's tracks |
| Session.EncoderFaultLeadsToPreview | src/hooks/useScreenRecorder.js:149-162 | an active encoder that stops after a runtime error makes its stop event due, and the hook's stop handler then shows the preview of the buffered chunks with everything released, the same final state as the Stop button except `isPaused` |
| Session.OnStopProducesPreview | src/hooks/useScreenRecorder.js:155-162 | the stop event shows a preview of every buffered byte in order, typed by the encoder or by the session's format, with time 0 and everything released |
| Session.ApplyAfterStop | src/hooks/useScreenRecorder.js:153-207 | after `stop()`, a tick, pause, resume or data event leaves the encoder inactive with its stop event due and changes neither the stream nor the live tracks |
| Session.RunAfterStop | src/hooks/useScreenRecorder.js:153-207 | the same holds through any sequence of such events before the stop event |
| Session.ArrivalsConcat | src/hooks/useScreenRecorder.js:153 | the chunks of two runs of events are those of the first followed by those of the second |
| Session.StopThenStopEvent | src/hooks/useScreenRecorder.js:155-189 | stopping a session under way makes the stop event due; data that arrives before it is still buffered, and the stop event gives the preview of the session's buffer followed by those late non-empty chunks, with everything released |
| Session.StopKeepsOtherTracks | src/hooks/useScreenRecorder.js:21-36 | a live track outside the recorded stream is still live after stop, any late events and the stop event |
| Session.SessionBlobIsAllData | src/hooks/useScreenRecorder.js:60-189 | for a successful start, any events, stop, any events before the stop event, then the stop event, the blob is the concatenation of all data that arrived before and after the stop, typed by the encoder or by the format chosen at start |
| Session.ScreenVideoOutlivesRelease | src/hooks/useScreenRecorder.js:128-132 | the screen's own video track is still live after the session is released, because the recorded stream carries the canvas video instead |
| Session.ResetClears | src/hooks/useScreenRecorder.js:209-214 | reset gives idle, time 0, no blob and no error, and is idempotent |
| Session.ApplyKeepsEncoder | src/hooks/useScreenRecorder.js:153 | one event keeps the encoder and its format, and adds at most its own non-empty chunk to the buffer |
| Recorder.ScreenRecorder.constructor | src/hooks/useScreenRecorder.js:4-19 | the fields hold the initial state |
| Recorder.ScreenRecorder.Configure | src/hooks/useScreenRecorder.js:228-233 | the setters change the settings only |
| Recorder.ScreenRecorder.Start | src/hooks/useScreenRecorder.js:60-181 | performs `StartStep`; a refused screen ends idle with the failure message; a start that completes is recording from 0 with an empty buffer |
| Recorder.ScreenRecorder.BeginStartFields | src/hooks/useScreenRecorder.js:61-63 | performs `BeginStart`: clears the error and the blob and unpauses |
| Recorder.ScreenRecorder.FailStartFields | src/hooks/useScreenRecorder.js:176-180 | performs `FailStart`: the failure message and idle |
| Recorder.ScreenRecorder.AcquireFields | src/hooks/useScreenRecorder.js:64-107 | performs the acquisition stage of a start |
| Recorder.ScreenRecorder.MixFields | src/hooks/useScreenRecorder.js:109-146 | performs the draw-loop, stream and negotiation stage of a start |
| Recorder.ScreenRecorder.CombineFields | src/hooks/useScreenRecorder.js:127-135 | performs `Combine`: the canvas tracks go live and the combined stream is held |
| Recorder.ScreenRecorder.NegotiateFields | src/hooks/useScreenRecorder.js:137-146 | performs `Negotiate`: the mp4 warning when no mp4 type is supported |
| Recorder.ScreenRecorder.InstallEncoderFields | src/hooks/useScreenRecorder.js:148-162 | performs `InstallEncoder`: an inactive encoder with the negotiated type, the resolution's bitrate, the output format and an empty buffer |
| Recorder.ScreenRecorder.LaunchFields | src/hooks/useScreenRecorder.js:171-174 | performs `Launch`: the end-of-share handler is attached to the given track, the encoder records, the status is recording and the clock runs from 0 |
| Recorder.ScreenRecorder.EncoderFault | src/hooks/useScreenRecorder.js:149-162 | performs `EncoderFaultStep`: an active encoder becomes inactive with its stop event due and the timer left running; otherwise nothing changes |
| Recorder.ScreenRecorder.Stop | src/hooks/useScreenRecorder.js:183-189 | an active encoder becomes inactive with its stop event due and the timer stopped; otherwise nothing changes |
| Recorder.ScreenRecorder.ScreenEnded | src/hooks/useScreenRecorder.js:165-169 | performs `ScreenEndedStep`: the end of the track the current encoder's handler is attached to stops an active encoder; the end of any other track changes nothing |
| Recorder.ScreenRecorder.Pause | src/hooks/useScreenRecorder.js:191-198 | performs `PauseStep`, keeping the time |
| Recorder.ScreenRecorder.Resume | src/hooks/useScreenRecorder.js:200-207 | performs `ResumeStep` |
| Recorder.ScreenRecorder.Tick | src/hooks/useScreenRecorder.js:174 | performs `TickStep` |
| Recorder.ScreenRecorder.DataAvailable | src/hooks/useScreenRecorder.js:153 | a chunk of positive size is appended to the buffer, and an empty one leaves the buffer as it was |
| Recorder.ScreenRecorder.StopAllTracks | src/hooks/useScreenRecorder.js:21-36 | performs `ReleaseStep` |
| Recorder.ScreenRecorder.OnStop | src/hooks/useScreenRecorder.js:155-162 | performs `OnStopStep` |
| Recorder.ScreenRecorder.Reset | src/hooks/useScreenRecorder.js:209-214 | performs `ResetStep` |
| Recorder.ScreenRecorder.DrawFrame | src/hooks/useScreenRecorder.js:109-124 | paints `DrawOutput` and performs `DrawStep` |
| Dock.TimeText | src/components/ControlDock.jsx:137 | idle shows "0:00"; any other status shows `formatTime` of the session's time, which reads back as that time |
| Dock.StatusLabel | src/components/ControlDock.jsx:135 | "IDLE" exactly when idle, "PAUSED" exactly when paused, "REC" exactly when recording or in preview |
| Dock.DraggableExactlyWhenSettingsHidden | src/components/ControlDock.jsx:111-118 | the pill is draggable exactly when the settings popup is not shown, and always outside idle |
| Dock.Buttons | src/components/ControlDock.jsx:145-172 | two buttons; settings and record exactly when idle, stop exactly outside idle, resume exactly when paused, pause exactly when recording or in preview |
| Dock.ControlsMatchCommandGuards | src/components/ControlDock.jsx:112-172 | in a consistent session under way the recording controls show, and the dock offers pause exactly when the pause command would act and resume exactly when resume would |
| Dock.PopupPlacement | src/components/ControlDock.jsx:84-106 | with no dock the popup is placed at the bottom with no horizontal class; otherwise it is on top exactly when there are under 400 px below and over 400 px above, and aligned left exactly when the dock's left edge is under 280 px |
| Dock.PopupOpensTowardRoom | src/components/ControlDock.jsx:90-97 | the popup opens on top only with 400 px above and more room above than below, and always at the bottom when there are 400 px below |
| Dock.DragBounds | src/components/ControlDock.jsx:48-51 | the maxima are 24, and each range is as wide as the room the dock leaves in the viewport, so it is non-empty exactly when the dock fits |
| Dock.OriginInBounds | src/components/ControlDock.jsx:48-51 | the untranslated dock is within the bounds when the viewport leaves it the 24 px margin |
| Dock.Clamp | src/components/ControlDock.jsx:72-73 | inside a non-empty range the result lies in it, equals the value when the value does and the nearer end otherwise; with an empty range the upper end wins |
| Dock.ClampMonotone | src/components/ControlDock.jsx:72-73 | clamping never reverses the direction of a drag |
| Dock.DragTarget | src/components/ControlDock.jsx:68-74 | the new translation stays within non-empty bounds and is exactly the initial translation plus the mouse's travel while that is within them |
| Dock.DragBackToStart | src/components/ControlDock.jsx:68-74 | moving the mouse back to where the drag started puts an in-bounds dock back where it was |
| Dock.DockState.constructor | src/components/ControlDock.jsx:19-28 | expanded, untranslated, not dragging |
| Dock.DockState.MouseDown | src/components/ControlDock.jsx:38-64 | in draggable mode with the dock rendered, a drag starts from the mouse position and the current translation with the viewport's bounds; otherwise nothing changes |
| Dock.DockState.MouseMove | src/components/ControlDock.jsx:66-75 | during a drag the translation becomes `DragTarget` of the mouse position; otherwise nothing changes |
| Dock.DockState.MouseUp | src/components/ControlDock.jsx:77-81 | the drag ends and nothing else changes |
| Dock.DockState.ToggleSettings | src/components/ControlDock.jsx:147 | the settings button flips the expanded flag |
| Dock.DockState.CloseSettings | src/components/ControlDock.jsx:123 | closing the popup collapses it |

## Left out

- Browser APIs are inputs or abstractions, not behaviour. This covers `getDisplayMedia`, `getUserMedia`, `MediaRecorder`, the canvas, `requestAnimationFrame` and `setInterval`. Their outcomes are the `Acquisition` fields and the separate tick, data and stop steps. The capture options passed to them are not modelled: echo cancellation, the sample rate, the surface switches and the canvas capture rate.
- Track and video clean-up is reduced to a set of live tracks and "held" flags. Resetting `srcObject` and calling `load()` are not modelled.
- Chunks are byte sequences, and a blob is their concatenation plus a type.
- The pixels drawn are not modelled. `DrawOutput` says whether a frame is painted and where.
- React mechanics are not modelled: rendering, `useCallback`, the unmount effect (line 38-40, which calls the same release), and the asynchronous batching of state updates. Each step applies its updates at once.
- Four failure points are modelled: a refused screen, `video.play()` throwing, `new MediaRecorder` throwing, and a screen stream with no video track, where reading `getVideoTracks()[0].onended` (line 165) throws. An encoder that stops by itself after a runtime error is modelled as the step `EncoderFaultStep`; the hook has no error handler, so only its stop handler reacts. Other errors are not modelled: `getContext` failing, `captureStream` failing and `mediaRecorder.start()` throwing.
- A start is modelled as one step, `StartStep`. The hook's `startRecording` waits at three `await`s: the screen prompt (line 67), the microphone prompt (line 84) and `video.play()` (line 107). Commands and callbacks that arrive while it waits are not modelled. Two such cases are not captured. First, the status stays idle until line 172, so the dock still offers Record, and a second click starts a second start that interleaves with the first. Second, the user can end the screen share after line 67 and before line 165 attaches `onended`. That handler then never fires, and the session records until Stop.
- A start while a session is under way is not guarded in the hook, and the model does not guard it either. The dock offers Record only in idle, apart from the waits of a start described above. The invariant lemmas are stated for starts outside a session. An interval left running by such a start is not modelled. A start made while an earlier encoder's stop event is still pending replaces the encoder, and the model drops that pending event. The start lemmas exclude that case. A start made while an earlier encoder is still active also drops that encoder, so the model does not capture its handlers, including the end-of-share handler, which would still stop it.
- The hook exposes `setStatus` directly to its caller. Arbitrary status changes made through it are not modelled.
- `src/App.jsx`, `src/components/SettingsPopup.jsx`, `src/content.jsx`, `src/background.js` and `manifest.config.js` are not part of this model. This includes the preview tab, hiding and showing the dock, and the extension messaging.
- The resolution table is a `map` of its three keys. Keys inherited by a JavaScript object, such as `constructor`, are not modelled. Any other key falls back to 1080p.
- JavaScript numbers are doubles. Time is a `nat`, so `formatTime` of a negative or fractional value is not modelled. The letterbox, drag and placement arithmetic is exact over reals, so floating-point rounding is not modelled.
- `getPopupClass` computes `spaceRight` from `window.innerWidth` but never uses it, so the model has no viewport-width input there. The CSS-module lookup `styles[...]` is modelled as the placement it selects, not as class-name strings.
- `ShowRecordingControls` (ControlDock.jsx line 112) is declared in the component but used nowhere in its markup. The model keeps it only to state what the controls show.
- The listeners added and removed on `document` are not modelled. `MouseMove` and `MouseUp` model the handlers whenever they fire, and both are guarded on the drag state as in the source.
- Dark mode, the error toast and the CSS classes of the dot and the timer are not modelled.
- Recorder.ScreenRecorder.ScreenEnded: like the source's handler, it leaves `isPaused` as it was, also after the stop event, and it leaves the timer running until the stop event. `RevocationMatchesStop` states the difference from the Stop button.
- The model follows the code as written:
  - the mp4 fallback is plain `video/webm`, not VP9 webm;
  - the microphone warning is the code's text;
  - a start is not refused while a session runs;
  - the screen's own video track is never stopped: release stops only the recorded stream's tracks, which carry the canvas video instead;
  - a start that fails after the screen was acquired keeps the screen's tracks live and the hidden video held, and, once the stream was assembled, the draw loop running.

=== FILE: compositor.dfy ===
/**
 * The per-frame letterbox arithmetic of the draw loop: the screen frame is
 * scaled by the smaller of the two canvas/source ratios and centred on a
 * black canvas. Pixel values are exact reals here.
 */
module Compositor {
  import opened Wrappers
  import opened Numbers

  /** The rectangle the source frame is drawn into: `drawImage(video, x, y, w, h)`. */
  datatype DrawRect = DrawRect(x: real, y: real, w: real, h: real)

  /**
   * Where a `srcW`×`srcH` frame lands on a `cw`×`ch` canvas. `None` when the
   * source reports a zero dimension (only the black fill is drawn). Otherwise
   * the rectangle lies inside the canvas, is centred on it, keeps the source's
   * aspect ratio and spans the full width or the full height of the canvas.
   */
  function Letterbox(cw: nat, ch: nat, srcW: nat, srcH: nat): (r: Option<DrawRect>)
    ensures r.Some? <==> srcW > 0 && srcH > 0
    ensures r.Some? ==> 0.0 <= r.value.x && 0.0 <= r.value.y
    ensures r.Some? ==> r.value.x + r.value.w <= cw as real && r.value.y + r.value.h <= ch as real
    ensures r.Some? ==> 2.0 * r.value.x + r.value.w == cw as real && 2.0 * r.value.y + r.value.h == ch as real
    ensures r.Some? ==> r.value.w == cw as real || r.value.h == ch as real
    ensures r.Some? ==> r.value.w * srcH as real == r.value.h * srcW as real
  {
    if srcW == 0 || srcH == 0 then None
    else
      var ratio := Min(cw as real / srcW as real, ch as real / srcH as real);
      var w := srcW as real * ratio;
      var h := srcH as real * ratio;
      ScaledFits(cw as real, ch as real, srcW as real, srcH as real, ratio);
      Some(DrawRect((cw as real - w) / 2.0, (ch as real - h) / 2.0, w, h))
  }

  /** Scaling by the smaller ratio never overflows the canvas and reaches one of its edges. */
  lemma ScaledFits(cw: real, ch: real, sw: real, sh: real, ratio: real)
    requires cw >= 0.0 && ch >= 0.0 && sw > 0.0 && sh > 0.0
    requires ratio == Min(cw / sw, ch / sh)
    ensures sw * ratio <= cw && sh * ratio <= ch
    ensures sw * ratio == cw || sh * ratio == ch
  {
    assert sw * (cw / sw) == cw;
    assert sh * (ch / sh) == ch;
    if ratio == cw / sw {
      assert ratio <= ch / sh;
      assert sh * ratio <= sh * (ch / sh);
    } else {
      assert ratio <= cw / sw;
      assert sw * ratio <= sw * (cw / sw);
    }
  }

  /** A 640×480 source on the 1080p canvas is pillarboxed to 1440×1080 at (240, 0). */
  lemma PillarboxExample()
    ensures Letterbox(1920, 1080, 640, 480) == Some(DrawRect(240.0, 0.0, 1440.0, 1080.0))
  {
    assert 1080.0 / 480.0 == 2.25;
    assert 1920.0 / 640.0 == 3.0;
  }

  /** A source with the canvas's own shape fills the whole canvas. */
  lemma SameAspectFillsCanvas(cw: nat, ch: nat, srcW: nat, srcH: nat)
    requires srcW > 0 && srcH > 0 && cw * srcH == ch * srcW
    ensures Letterbox(cw, ch, srcW, srcH) == Some(DrawRect(0.0, 0.0, cw as real, ch as real))
  {
    var r := Letterbox(cw, ch, srcW, srcH).value;
    assert (cw * srcH) as real == (ch * srcW) as real;
    assert cw as real / srcW as real == ch as real / srcH as real;
    assert r.w == cw as real;
  }
}

=== FILE: dock.dfy ===
/**
 * The floating control dock: its timer label, the status label and which
 * controls it shows, where the settings popup opens, and dragging the dock
 * inside the viewport. Coordinates and sizes are CSS pixels, modelled as
 * reals.
 */
module Dock {
  import opened Wrappers
  import opened TimeFormat
  import opened Session
  import opened Numbers

  // ---------------------------------------------------------------------
  // Labels and controls

  /** The timer text: "0:00" while idle, otherwise the elapsed time as `m:ss`, which reads back as that time. */
  function TimeText(status: Status, time: nat): (t: string)
    ensures status == Idle ==> t == "0:00"
    ensures status != Idle ==> t == FormatTime(time) && ParseTime(t) == Some(time)
  {
    if status == Idle then "0:00"
    else
      FormatTimeRoundTrip(time);
      FormatTime(time)
  }

  /** The status word: each of the three words names exactly its statuses; a preview reads as REC. */
  function StatusLabel(status: Status): (word: string)
    ensures word == "IDLE" <==> status == Idle
    ensures word == "PAUSED" <==> status == Paused
    ensures word == "REC" <==> status == Recording || status == Preview
  {
    match status
    case Idle => "IDLE"
    case Paused => "PAUSED"
    case Recording | Preview => "REC"
  }

  /** The settings popup is rendered. */
  predicate SettingsShown(expanded: bool, status: Status)
  {
    expanded && status == Idle
  }

  /** The pill is a drag handle. */
  predicate IsDraggableMode(expanded: bool, status: Status)
  {
    !expanded || status != Idle
  }

  /** The pill can be dragged exactly when the settings popup is not shown. */
  lemma DraggableExactlyWhenSettingsHidden(expanded: bool, status: Status)
    ensures IsDraggableMode(expanded, status) <==> !SettingsShown(expanded, status)
    ensures status != Idle ==> IsDraggableMode(expanded, status)
  {
  }

  predicate ShowRecordingControls(status: Status)
  {
    status == Recording || status == Paused
  }

  /** The buttons of the action area. */
  datatype Button = SettingsButton | RecordButton | PauseButton | ResumeButton | StopButton

  /** Idle offers settings and record; a paused session resume and stop; any other status pause and stop. */
  function Buttons(status: Status): (bs: seq<Button>)
    ensures |bs| == 2
    ensures bs == [SettingsButton, RecordButton] <==> status == Idle
    ensures bs[1] == StopButton <==> status != Idle
    ensures bs[0] == ResumeButton <==> status == Paused
    ensures bs[0] == PauseButton <==> status == Recording || status == Preview
  {
    match status
    case Idle => [SettingsButton, RecordButton]
    case Paused => [ResumeButton, StopButton]
    case Recording | Preview => [PauseButton, StopButton]
  }

  /**
   * In a session under way the dock shows the recording controls, and offers
   * pause exactly when the pause command would act and resume exactly when
   * the resume command would.
   */
  lemma ControlsMatchCommandGuards(e: Engine)
    requires Consistent(e) && Engaged(e)
    ensures ShowRecordingControls(e.status)
    ensures Buttons(e.status)[0] == PauseButton <==> EncoderRunning(e)
    ensures Buttons(e.status)[0] == ResumeButton <==> EncoderSuspended(e)
    ensures StatusLabel(e.status) == (if EncoderRunning(e) then "REC" else "PAUSED")
  {
  }

  // ---------------------------------------------------------------------
  // Popup placement

  /** A `getBoundingClientRect` result. */
  datatype ClientRect = ClientRect(left: real, top: real, width: real, height: real)
  {
    function Bottom(): real { top + height }
  }

  datatype VPos = Top | Bottom
  datatype HPos = Left | Right

  /** The popup's placement classes; without a dock only the vertical one is given. */
  datatype Placement = Placement(vertical: VPos, horizontal: Option<HPos>)

  /** The room, in pixels, the popup needs above or below the dock. */
  const PopupRoom: real := 400.0
  /** A dock whose left edge is closer than this to the viewport's left aligns the popup left. */
  const LeftAlignEdge: real := 280.0

  /**
   * `getPopupClass`: below unless there is too little room below and enough
   * above; aligned left when the dock is near the left edge, else right.
   */
  function PopupPlacement(dock: Option<ClientRect>, innerHeight: real): (p: Placement)
    ensures dock.None? ==> p == Placement(Bottom, None)
    ensures dock.Some? ==> p.horizontal.Some?
    ensures dock.Some? ==>
      (p.vertical == Top <==> innerHeight - dock.value.Bottom() < PopupRoom && dock.value.top > PopupRoom)
    ensures dock.Some? ==> (p.horizontal == Some(Left) <==> dock.value.left < LeftAlignEdge)
  {
    match dock
    case None => Placement(Bottom, None)
    case Some(r) =>
      var spaceBelow := innerHeight - r.Bottom();
      var spaceAbove := r.top;
      Placement(if spaceBelow < PopupRoom && spaceAbove > PopupRoom then Top else Bottom,
                Some(if r.left < LeftAlignEdge then Left else Right))
  }

  /**
   * The popup opens above only where it has room and there is more room than
   * below; with room below it always opens below.
   */
  lemma PopupOpensTowardRoom(dock: ClientRect, innerHeight: real)
    ensures PopupPlacement(Some(dock), innerHeight).vertical == Top ==>
      dock.top >= PopupRoom && dock.top > innerHeight - dock.Bottom()
    ensures innerHeight - dock.Bottom() >= PopupRoom ==> PopupPlacement(Some(dock), innerHeight).vertical == Bottom
  {
  }

  // ---------------------------------------------------------------------
  // Dragging

  /** The drag range of the dock's translation. */
  datatype Bounds = Bounds(minX: real, maxX: real, minY: real, maxY: real)

  /** The dock keeps this margin, in pixels, from the viewport's edges. */
  const Margin: real := 24.0

  /**
   * The bounds fixed when a drag starts: the translation may go up to the
   * margin right and down, and left and up by the viewport's room beyond the
   * dock less the margin. The horizontal range is as wide as the room left by
   * the dock, so it is empty exactly when the dock is wider than the viewport;
   * likewise vertically.
   */
  function DragBounds(viewportWidth: real, viewportHeight: real, rectWidth: real, rectHeight: real): (b: Bounds)
    ensures b.maxX == Margin && b.maxY == Margin
    ensures b.maxX - b.minX == viewportWidth - rectWidth
    ensures b.maxY - b.minY == viewportHeight - rectHeight
    ensures b.minX <= b.maxX <==> rectWidth <= viewportWidth
    ensures b.minY <= b.maxY <==> rectHeight <= viewportHeight
  {
    Bounds(-(viewportWidth - rectWidth - Margin), Margin, -(viewportHeight - rectHeight - Margin), Margin)
  }

  /** The untranslated dock is inside the drag bounds when the viewport leaves it the margin. */
  lemma OriginInBounds(viewportWidth: real, viewportHeight: real, rectWidth: real, rectHeight: real)
    requires rectWidth + Margin <= viewportWidth && rectHeight + Margin <= viewportHeight
    ensures InBounds(Point(0.0, 0.0), DragBounds(viewportWidth, viewportHeight, rectWidth, rectHeight))
  {
  }

  /**
   * `Math.min(Math.max(v, lo), hi)`: inside a non-empty range the result lies
   * in it, is `v` itself when `v` already does and the nearer end otherwise;
   * with an empty range the upper end wins.
   */
  function Clamp(v: real, lo: real, hi: real): (r: real)
    ensures r <= hi
    ensures lo <= hi ==> lo <= r
    ensures lo <= v <= hi ==> r == v
    ensures v < lo <= hi ==> r == lo
    ensures hi < v ==> r == hi
    ensures hi < lo ==> r == hi
  {
    Min(Max(v, lo), hi)
  }

  /** Clamping never reverses the mouse's direction. */
  lemma ClampMonotone(v: real, w: real, lo: real, hi: real)
    requires v <= w
    ensures Clamp(v, lo, hi) <= Clamp(w, lo, hi)
  {
  }

  /** The dock's translation. */
  datatype Point = Point(x: real, y: real)

  predicate InBounds(p: Point, b: Bounds)
  {
    b.minX <= p.x <= b.maxX && b.minY <= p.y <= b.maxY
  }

  /** What `dragRef` holds: whether a drag is on, where it started, the translation then, and the bounds. */
  datatype DragRef = DragRef(isDragging: bool, startX: real, startY: real, initialX: real, initialY: real, bounds: Bounds)

  /**
   * The translation a mouse position asks for during a drag: the initial
   * translation moved by the mouse's travel, clamped into the bounds. It stays
   * inside non-empty bounds and follows the mouse exactly while the travel
   * keeps the dock inside them.
   */
  function DragTarget(d: DragRef, clientX: real, clientY: real): (p: Point)
    ensures d.bounds.minX <= d.bounds.maxX && d.bounds.minY <= d.bounds.maxY ==> InBounds(p, d.bounds)
    ensures InBounds(Point(d.initialX + (clientX - d.startX), d.initialY + (clientY - d.startY)), d.bounds) ==>
      p == Point(d.initialX + (clientX - d.startX), d.initialY + (clientY - d.startY))
  {
    Point(Clamp(d.initialX + (clientX - d.startX), d.bounds.minX, d.bounds.maxX),
          Clamp(d.initialY + (clientY - d.startY), d.bounds.minY, d.bounds.maxY))
  }

  /** Bringing the mouse back to where the drag started puts an in-bounds dock back where it was. */
  lemma DragBackToStart(d: DragRef)
    requires InBounds(Point(d.initialX, d.initialY), d.bounds)
    ensures DragTarget(d, d.startX, d.startY) == Point(d.initialX, d.initialY)
  {
  }

  /** The dock's own state: whether the settings are expanded, its translation, and the drag in progress. */
  class DockState {
    var expanded: bool
    var position: Point
    var drag: DragRef

    constructor ()
      ensures expanded && position == Point(0.0, 0.0)
      ensures drag == DragRef(false, 0.0, 0.0, 0.0, 0.0, Bounds(0.0, 0.0, 0.0, 0.0))
    {
      expanded := true;
      position := Point(0.0, 0.0);
      drag := DragRef(false, 0.0, 0.0, 0.0, 0.0, Bounds(0.0, 0.0, 0.0, 0.0));
    }

    /**
     * `handleMouseDown`: in draggable mode and with the dock rendered, starts
     * a drag from the mouse position and the current translation, with bounds
     * from the viewport and the dock's size; otherwise nothing.
     */
    method MouseDown(clientX: real, clientY: real, status: Status, dock: Option<ClientRect>,
                     viewportWidth: real, viewportHeight: real)
      modifies this
      ensures expanded == old(expanded) && position == old(position)
      ensures !IsDraggableMode(expanded, status) || dock.None? ==> drag == old(drag)
      ensures IsDraggableMode(expanded, status) && dock.Some? ==>
        drag == DragRef(true, clientX, clientY, position.x, position.y,
                        DragBounds(viewportWidth, viewportHeight, dock.value.width, dock.value.height))
    {
      if expanded && status == Idle {
        return;
      }
      if dock.None? {
        return;
      }
      var rect := dock.value;
      var maxX := Margin;
      var minX := -(viewportWidth - rect.width - Margin);
      var maxY := Margin;
      var minY := -(viewportHeight - rect.height - Margin);
      drag := DragRef(true, clientX, clientY, position.x, position.y, Bounds(minX, maxX, minY, maxY));
    }

    /** `handleMouseMove`: during a drag, moves the dock to the clamped target; otherwise nothing. */
    method MouseMove(clientX: real, clientY: real)
      modifies this
      ensures expanded == old(expanded) && drag == old(drag)
      ensures drag.isDragging ==> position == DragTarget(drag, clientX, clientY)
      ensures !drag.isDragging ==> position == old(position)
    {
      if !drag.isDragging {
        return;
      }
      var dx := clientX - drag.startX;
      var dy := clientY - drag.startY;
      var newX := drag.initialX + dx;
      var newY := drag.initialY + dy;
      newX := Min(Max(newX, drag.bounds.minX), drag.bounds.maxX);
      newY := Min(Max(newY, drag.bounds.minY), drag.bounds.maxY);
      position := Point(newX, newY);
    }

    /** `handleMouseUp`: ends the drag, keeping everything else. */
    method MouseUp()
      modifies this
      ensures expanded == old(expanded) && position == old(position)
      ensures drag == old(drag).(isDragging := false)
    {
      drag := drag.(isDragging := false);
    }

    /** The settings button toggles the popup. */
    method ToggleSettings()
      modifies this
      ensures expanded == !old(expanded)
      ensures position == old(position) && drag == old(drag)
    {
      expanded := !expanded;
    }

    /** The popup's close action collapses it. */
    method CloseSettings()
      modifies this
      ensures !expanded
      ensures position == old(position) && drag == old(drag)
    {
      expanded := false;
    }
  }
}

=== FILE: media.dfy ===
/**
 * Media values handled by the recording engine: tracks of the captured
 * streams and the encoded chunks that become the final recording.
 */
module Media {
  import opened Wrappers

  /** A byte of encoded media. */
  newtype byte = x: int | 0 <= x < 256

  /** The payload of one `dataavailable` event; its `size` is its length. */
  type Chunk = seq<byte>

  /** The finished recording: the concatenated payload and its declared media type. */
  datatype Blob = Blob(data: seq<byte>, mime: string)

  datatype TrackKind = Video | Audio

  /** A media track, identified by its id; `kind` is what `getVideoTracks` and `getAudioTracks` select on. */
  datatype Track = Track(id: nat, kind: TrackKind)

  /** The tracks of one stream, as a set. */
  function TrackSet(ts: seq<Track>): set<Track>
  {
    set t | t in ts
  }

  /** `getVideoTracks()` / `getAudioTracks()`: the tracks of kind `k`, in stream order. */
  function OfKind(ts: seq<Track>, k: TrackKind): (r: seq<Track>)
    ensures forall t :: t in r <==> t in ts && t.kind == k
    ensures forall i :: 0 <= i < |r| ==> r[i].kind == k
    ensures |r| <= |ts|
  {
    if ts == [] then []
    else (if ts[0].kind == k then [ts[0]] else []) + OfKind(ts[1..], k)
  }

  /**
   * The tracks handed to the combined MediaStream: the canvas stream's video
   * tracks, then the screen stream's audio tracks, then the microphone's audio
   * tracks when a microphone stream was obtained.
   */
  function Combined(canvas: seq<Track>, screen: seq<Track>, mic: Option<seq<Track>>): (r: seq<Track>)
    ensures forall t :: t in r <==>
      (t in canvas && t.kind == Video) || (t in screen && t.kind == Audio) ||
      (mic.Some? && t in mic.value && t.kind == Audio)
    ensures forall i :: 0 <= i < |r| ==> (r[i].kind == Video <==> i < |OfKind(canvas, Video)|)
  {
    var v := OfKind(canvas, Video);
    var m := if mic.Some? then OfKind(mic.value, Audio) else [];
    var a := OfKind(screen, Audio) + m;
    assert forall t :: t in a <==> t in OfKind(screen, Audio) || t in m;
    assert forall i :: 0 <= i < |a| ==> a[i].kind == Audio by {
      forall i | 0 <= i < |a| ensures a[i].kind == Audio {
        if i < |OfKind(screen, Audio)| {
          assert a[i] == OfKind(screen, Audio)[i];
        } else {
          assert a[i] == m[i - |OfKind(screen, Audio)|];
        }
      }
    }
    v + a
  }

  /** The concatenation of the chunks, in order: what `new Blob(chunks)` holds. */
  function Flatten(cs: seq<Chunk>): seq<byte>
  {
    if cs == [] then [] else cs[0] + Flatten(cs[1..])
  }

  /** The chunks whose size is greater than zero, in arrival order. */
  function KeepNonEmpty(cs: seq<Chunk>): (r: seq<Chunk>)
    ensures forall c :: c in r <==> c in cs && |c| > 0
    ensures |r| <= |cs|
  {
    if cs == [] then []
    else (if |cs[0]| > 0 then [cs[0]] else []) + KeepNonEmpty(cs[1..])
  }

  /** Appending one chunk appends its bytes. */
  lemma {:induction false} FlattenAppend(cs: seq<Chunk>, c: Chunk)
    ensures Flatten(cs + [c]) == Flatten(cs) + c
  {
    if cs == [] {
      assert [] + [c] == [c];
    } else {
      assert (cs + [c])[1..] == cs[1..] + [c];
      FlattenAppend(cs[1..], c);
    }
  }

  /** Filtering one more arrival extends the filtered buffer by that arrival exactly when it is non-empty. */
  lemma {:induction false} KeepNonEmptyAppend(cs: seq<Chunk>, c: Chunk)
    ensures KeepNonEmpty(cs + [c]) == KeepNonEmpty(cs) + (if |c| > 0 then [c] else [])
  {
    if cs == [] {
      assert [] + [c] == [c];
      assert [c][1..] == [];
    } else {
      assert (cs + [c])[1..] == cs[1..] + [c];
      KeepNonEmptyAppend(cs[1..], c);
    }
  }

  lemma {:induction false} KeepNonEmptyConcat(xs: seq<Chunk>, ys: seq<Chunk>)
    ensures KeepNonEmpty(xs + ys) == KeepNonEmpty(xs) + KeepNonEmpty(ys)
  {
    if xs == [] {
      assert xs + ys == ys;
    } else {
      assert (xs + ys)[1..] == xs[1..] + ys;
      KeepNonEmptyConcat(xs[1..], ys);
    }
  }

  /** Dropping the empty chunks does not change the concatenated payload. */
  lemma {:induction false} FlattenKeepNonEmpty(cs: seq<Chunk>)
    ensures Flatten(KeepNonEmpty(cs)) == Flatten(cs)
  {
    if cs != [] {
      FlattenKeepNonEmpty(cs[1..]);
      FlattenConcat(if |cs[0]| > 0 then [cs[0]] else [], KeepNonEmpty(cs[1..]));
      if |cs[0]| == 0 {
        assert cs[0] == [];
      }
    }
  }

  lemma {:induction false} FlattenConcat(xs: seq<Chunk>, ys: seq<Chunk>)
    ensures Flatten(xs + ys) == Flatten(xs) + Flatten(ys)
  {
    if xs == [] {
      assert xs + ys == ys;
    } else {
      assert (xs + ys)[1..] == xs[1..] + ys;
      FlattenConcat(xs[1..], ys);
    }
  }

  /**
   * The blob built by the encoder's `onstop` handler: the buffered chunks in
   * order, typed with the encoder's reported `mimeType`, or `video/<format>`
   * when the encoder reports an empty one.
   */
  function MakeBlob(chunks: seq<Chunk>, reportedMime: string, format: string): (b: Blob)
    ensures |b.mime| > 0
    ensures reportedMime != "" ==> b.mime == reportedMime
    ensures reportedMime == "" ==> b.mime == "video/" + format
    ensures forall k :: 0 <= k < |chunks| ==> |b.data| >= |chunks[k]|
  {
    FlattenCovers(chunks);
    Blob(Flatten(chunks), if reportedMime != "" then reportedMime else "video/" + format)
  }

  lemma {:induction false} FlattenCovers(cs: seq<Chunk>)
    ensures forall k :: 0 <= k < |cs| ==> |Flatten(cs)| >= |cs[k]|
  {
    if cs != [] {
      FlattenCovers(cs[1..]);
      forall k | 1 <= k < |cs| ensures |Flatten(cs)| >= |cs[k]| {
        assert cs[k] == cs[1..][k - 1];
      }
    }
  }
}

=== FILE: media_config.dfy ===
/**
 * Session configuration taken by `startRecording`: the capture constraints
 * derived from the resolution setting, and the encoder's mime negotiation.
 */
module MediaConfig {
  import opened Wrappers

  /** What `getConstraints` returns: ideal capture size and rate, and the encoder bitrate. */
  datatype Constraints = Constraints(width: nat, height: nat, frameRate: nat, bitrate: nat)

  datatype Size = Size(width: nat, height: nat, bitrate: nat)

  /** The fixed resolution table of the hook. */
  const ResolutionTable: map<string, Size> := map[
    "720p" := Size(1280, 720, 2500000),
    "1080p" := Size(1920, 1080, 8000000),
    "4k" := Size(3840, 2160, 15000000)
  ]

  /**
   * Constraints for a resolution key and a frame rate: a known key selects its
   * table entry, any other key the 1080p entry; the frame rate passes through.
   */
  function GetConstraints(resolution: string, frameRate: nat): (c: Constraints)
    ensures c.frameRate == frameRate
    ensures resolution == "720p" ==> c.width == 1280 && c.height == 720 && c.bitrate == 2500000
    ensures resolution == "4k" ==> c.width == 3840 && c.height == 2160 && c.bitrate == 15000000
    ensures resolution != "720p" && resolution != "4k" ==>
      c.width == 1920 && c.height == 1080 && c.bitrate == 8000000
  {
    var selected := if resolution in ResolutionTable then ResolutionTable[resolution] else ResolutionTable["1080p"];
    Constraints(selected.width, selected.height, frameRate, selected.bitrate)
  }

  /** Every entry of the table, and so every canvas, is 16:9. */
  lemma ConstraintsAreWidescreen(resolution: string, frameRate: nat)
    ensures GetConstraints(resolution, frameRate).width * 9 == GetConstraints(resolution, frameRate).height * 16
  {
  }

  /** The container/codec strings tried, in order, when mp4 output is requested. */
  const Mp4Types: seq<string> := ["video/mp4;codecs=h264", "video/mp4;codecs=avc1", "video/mp4", "video/x-matroska;codecs=avc1"]

  const WebmVp9 := "video/webm;codecs=vp9"
  const Webm := "video/webm"
  const Mp4Warning := "MP4 format not supported. Using WebM."

  /** The index that `Array.prototype.find` stops at: the first element satisfying `p`. */
  function FirstIndex(types: seq<string>, p: string -> bool): (r: Option<nat>)
    ensures r.Some? ==> r.value < |types| && p(types[r.value])
    ensures r.Some? ==> forall j :: 0 <= j < r.value ==> !p(types[j])
    ensures r.None? <==> forall j :: 0 <= j < |types| ==> !p(types[j])
  {
    if types == [] then None
    else if p(types[0]) then Some(0)
    else match FirstIndex(types[1..], p)
      case None => None
      case Some(i) => Some(i + 1)
  }

  /** `types.find(p)`: the first element satisfying `p`, if any. */
  function Find(types: seq<string>, p: string -> bool): (r: Option<string>)
    ensures r.Some? ==>
      exists i :: 0 <= i < |types| && r.value == types[i] && p(types[i]) &&
        forall j :: 0 <= j < i ==> !p(types[j])
    ensures r.None? <==> forall j :: 0 <= j < |types| ==> !p(types[j])
  {
    match FirstIndex(types, p)
    case None => None
    case Some(i) => Some(types[i])
  }

  /** `types.some(p)`. */
  function AnySatisfies(types: seq<string>, p: string -> bool): (r: bool)
    ensures r <==> exists j :: 0 <= j < |types| && p(types[j])
  {
    if types == [] then false
    else p(types[0]) || AnySatisfies(types[1..], p)
  }

  /** The outcome of the negotiation: the mime type given to the encoder and whether the mp4 warning is raised. */
  datatype MimeChoice = MimeChoice(mime: string, warned: bool)

  /**
   * The encoder's mime type for an output format, given the runtime's
   * `isTypeSupported`. For "mp4": the first supported entry of `Mp4Types`, or
   * plain webm with a warning when none is supported. Otherwise: webm with
   * vp9 when supported, else plain webm, never with a warning.
   */
  function SelectMime(outputFormat: string, supported: string -> bool): (m: MimeChoice)
    ensures outputFormat == "mp4" ==>
      (m.warned <==> forall j :: 0 <= j < |Mp4Types| ==> !supported(Mp4Types[j]))
    ensures outputFormat == "mp4" && !m.warned ==>
      exists i :: 0 <= i < |Mp4Types| && m.mime == Mp4Types[i] && supported(Mp4Types[i]) &&
        forall j :: 0 <= j < i ==> !supported(Mp4Types[j])
    ensures outputFormat == "mp4" && m.warned ==> m.mime == Webm
    ensures outputFormat != "mp4" ==> !m.warned
    ensures outputFormat != "mp4" ==> m.mime == (if supported(WebmVp9) then WebmVp9 else Webm)
  {
    if outputFormat == "mp4" then
      var mime := match Find(Mp4Types, supported) case Some(t) => t case None => Webm;
      MimeChoice(mime, !AnySatisfies(Mp4Types, supported))
    else
      MimeChoice(if supported(WebmVp9) then WebmVp9 else Webm, false)
  }

  /** `find` and `some` agree: the warning is raised exactly when `find` falls back. */
  lemma FindFailsIffNoneSupported(types: seq<string>, p: string -> bool)
    ensures Find(types, p).None? <==> !AnySatisfies(types, p)
  {
  }

  /** A runtime that supports h264 in mp4 gets it, whatever else it supports. */
  lemma Mp4PrefersH264(supported: string -> bool)
    requires supported("video/mp4;codecs=h264")
    ensures SelectMime("mp4", supported) == MimeChoice("video/mp4;codecs=h264", false)
  {
  }

  /** A runtime supporting only matroska with avc1 gets matroska, without a warning. */
  lemma Mp4FallsThroughToMatroska(supported: string -> bool)
    requires !supported("video/mp4;codecs=h264") && !supported("video/mp4;codecs=avc1") && !supported("video/mp4")
    requires supported("video/x-matroska;codecs=avc1")
    ensures SelectMime("mp4", supported) == MimeChoice("video/x-matroska;codecs=avc1", false)
  {
  }

  /** With no mp4 support the fallback is plain webm, even where vp9 webm is supported. */
  lemma Mp4FallbackIsPlainWebm(supported: string -> bool)
    requires forall t :: supported(t) <==> t == WebmVp9 || t == Webm
    ensures SelectMime("mp4", supported) == MimeChoice(Webm, true)
  {
    assert forall j :: 0 <= j < |Mp4Types| ==> !supported(Mp4Types[j]);
  }
}

=== FILE: numbers.dfy ===
/** Lesser and greater of two pixel values: `Math.min` and `Math.max` on reals. */
module Numbers {
  function Min(a: real, b: real): (m: real)
    ensures m <= a && m <= b && (m == a || m == b)
  {
    if a <= b then a else b
  }

  function Max(a: real, b: real): (m: real)
    ensures m >= a && m >= b && (m == a || m == b)
  {
    if a >= b then a else b
  }
}

=== FILE: recorder.dfy ===
/**
 * The `useScreenRecorder` hook as an object: its React state and its refs are
 * fields, its commands and the browser callbacks it installs are methods.
 * Every method is specified by the corresponding step of `Session`, whose
 * lemmas carry the properties.
 */
module Recorder {
  import opened Wrappers
  import opened Media
  import opened MediaConfig
  import opened Compositor
  import opened Session

  class ScreenRecorder {
    // the settings the popup edits
    var settings: Settings
    // React state
    var status: Status
    var isPaused: bool
    var time: nat
    var error: string
    var blob: Option<Blob>
    // mediaRecorderRef, with what its handlers captured
    var encoder: Option<Encoder>
    // streamRef, hiddenVideoRef, animationFrameRef, timerIntervalRef
    var stream: Option<seq<Track>>
    var videoHeld: bool
    var frameHeld: bool
    var timerActive: bool
    // the canvas the draw loop paints, and the tracks not yet stopped
    var surface: Surface
    var live: set<Track>

    /** The abstract state these fields hold. */
    function State(): Engine
      reads this
    {
      Engine(settings, status, isPaused, time, error, blob, encoder,
             stream, videoHeld, frameHeld, timerActive, surface, live)
    }

    constructor ()
      ensures State() == Initial()
    {
      settings := Settings(false, "1080p", 60, "webm");
      status, isPaused, time, error, blob := Idle, false, 0, "", None;
      encoder := None;
      stream, videoHeld, frameHeld, timerActive := None, false, false, false;
      surface, live := Surface(0, 0), {};
    }

    /** The settings setters. */
    method Configure(s: Settings)
      modifies this
      ensures State() == ConfigureStep(old(State()), s)
    {
      settings := s;
    }

    /** `startRecording`, with the browser's answers given by `a`. */
    method Start(a: Acquisition)
      modifies this
      ensures State() == StartStep(old(State()), a)
      ensures a.screen.None? ==> status == Idle && error == FailedToStart
      ensures StartCompletes(a) ==>
        status == Recording && time == 0 && timerActive && encoder.Some? && encoder.value.chunks == []
    {
      BeginStartFields();
      if a.screen.None? {
        FailStartFields();
        return;
      }
      AcquireFields(a);
      if a.playbackFails {
        FailStartFields();
        return;
      }
      MixFields(a);
      if a.encoderFails {
        FailStartFields();
        return;
      }
      InstallEncoderFields(a);
      if !HasVideoTrack(a.screen.value) {
        // the screen stream's first video track is read to attach the end-of-share handler
        FailStartFields();
        return;
      }
      LaunchFields(OfKind(a.screen.value, Video)[0]);
    }

    method BeginStartFields()
      modifies this
      ensures State() == BeginStart(old(State()))
    {
      error := "";
      blob := None;
      isPaused := false;
    }

    method FailStartFields()
      modifies this
      ensures State() == FailStart(old(State()))
    {
      error := FailedToStart;
      status := Idle;
    }

    /** Obtains the screen and, when audio is enabled, the microphone; sizes the canvas; plays the screen in the hidden video. */
    method AcquireFields(a: Acquisition)
      requires a.screen.Some?
      modifies this
      ensures State() == Acquire(old(State()), a)
    {
      var config := GetConstraints(settings.resolution, settings.frameRate);
      live := live + TrackSet(a.screen.value);
      if settings.audioEnabled {
        if a.mic.Some? {
          live := live + TrackSet(a.mic.value);
        } else {
          error := MicWarning;
        }
      }
      surface := Surface(config.width, config.height);
      videoHeld := true;
    }

    /** Starts the draw loop, assembles the combined stream and negotiates the mime type. */
    method MixFields(a: Acquisition)
      requires a.screen.Some?
      modifies this
      ensures State() == Mix(old(State()), a)
    {
      // the first run of draw() finds the hidden video and schedules the next frame
      frameHeld := true;
      CombineFields(a);
      NegotiateFields(a);
    }

    method CombineFields(a: Acquisition)
      requires a.screen.Some?
      modifies this
      ensures State() == Combine(old(State()), a)
    {
      var mic := if settings.audioEnabled then a.mic else None;
      live := live + TrackSet(a.canvas);
      stream := Some(Combined(a.canvas, a.screen.value, mic));
    }

    method NegotiateFields(a: Acquisition)
      modifies this
      ensures State() == Negotiate(old(State()), a)
    {
      var choice := SelectMime(settings.outputFormat, a.supported);
      if choice.warned {
        error := Mp4Warning;
      }
    }

    /** Creates the encoder for the negotiated type and bitrate and installs its handlers. */
    method InstallEncoderFields(a: Acquisition)
      modifies this
      ensures State() == InstallEncoder(old(State()), a)
    {
      var config := GetConstraints(settings.resolution, settings.frameRate);
      var choice := SelectMime(settings.outputFormat, a.supported);
      encoder := Some(Encoder(Inactive, choice.mime, config.bitrate, settings.outputFormat, [], false, None));
    }

    /** Attaches the end-of-share handler to the screen's video track `t`, then starts the encoder and the session clock. */
    method LaunchFields(t: Track)
      requires encoder.Some?
      modifies this
      ensures State() == Launch(old(State()), t)
    {
      encoder := Some(encoder.value.(state := Running, endTrack := Some(t)));
      status := Recording;
      time := 0;
      timerActive := true;
    }

    /** `stopRecording`. */
    method Stop()
      modifies this
      ensures State() == StopStep(old(State()))
      ensures old(EncoderActive(State())) ==>
        encoder.Some? && encoder.value.state == Inactive && encoder.value.stopPending && !timerActive
      ensures !old(EncoderActive(State())) ==> State() == old(State())
    {
      if encoder.Some? && encoder.value.state != Inactive {
        encoder := Some(encoder.value.(state := Inactive, stopPending := true));
        timerActive := false;
        isPaused := false;
      }
    }

    /** The screen video track `t` ends; only the handler attached by the current encoder's start acts. */
    method ScreenEnded(t: Track)
      modifies this
      ensures State() == ScreenEndedStep(old(State()), t)
      ensures old(EndsCurrentShare(State(), t) && EncoderActive(State())) ==>
        encoder.Some? && encoder.value.state == Inactive && encoder.value.stopPending
      ensures !old(EndsCurrentShare(State(), t)) ==> State() == old(State())
    {
      if encoder.Some? && encoder.value.endTrack == Some(t) && encoder.value.state != Inactive {
        encoder := Some(encoder.value.(state := Inactive, stopPending := true));
      }
    }

    /** The encoder stops by itself after a runtime error; the hook installs no error handler. */
    method EncoderFault()
      modifies this
      ensures State() == EncoderFaultStep(old(State()))
      ensures old(EncoderActive(State())) ==>
        encoder.Some? && encoder.value.state == Inactive && encoder.value.stopPending && timerActive == old(timerActive)
      ensures !old(EncoderActive(State())) ==> State() == old(State())
    {
      if encoder.Some? && encoder.value.state != Inactive {
        encoder := Some(encoder.value.(state := Inactive, stopPending := true));
      }
    }

    /** `pauseRecording`. */
    method Pause()
      modifies this
      ensures State() == PauseStep(old(State()))
      ensures time == old(time)
    {
      if encoder.Some? && encoder.value.state == Running {
        encoder := Some(encoder.value.(state := Suspended));
        timerActive := false;
        isPaused := true;
        status := Paused;
      }
    }

    /** `resumeRecording`. */
    method Resume()
      modifies this
      ensures State() == ResumeStep(old(State()))
    {
      if encoder.Some? && encoder.value.state == Suspended {
        encoder := Some(encoder.value.(state := Running));
        timerActive := true;
        isPaused := false;
        status := Recording;
      }
    }

    /** The interval callback, `setTime(prev => prev + 1)`; it runs only while the interval does. */
    method Tick()
      requires timerActive
      modifies this
      ensures State() == TickStep(old(State()))
    {
      time := time + 1;
    }

    /** `ondataavailable`: pushes a chunk of positive size onto the encoder's buffer. */
    method DataAvailable(c: Chunk)
      requires encoder.Some?
      modifies this
      ensures State() == DataStep(old(State()), c)
      ensures encoder.Some?
      ensures |c| > 0 ==> encoder.value.chunks == old(encoder.value.chunks) + [c]
      ensures |c| == 0 ==> encoder.value.chunks == old(encoder.value.chunks)
    {
      if |c| > 0 {
        encoder := Some(encoder.value.(chunks := encoder.value.chunks + [c]));
      }
    }

    /** `stopAllTracks`. */
    method StopAllTracks()
      modifies this
      ensures State() == ReleaseStep(old(State()))
    {
      if stream.Some? {
        live := live - TrackSet(stream.value);
      }
      stream := None;
      videoHeld := false;
      frameHeld := false;
      timerActive := false;
    }

    /** The encoder's `onstop`, given the `mimeType` the encoder reports. */
    method OnStop(reportedMime: string)
      requires encoder.Some? && encoder.value.stopPending
      modifies this
      ensures State() == OnStopStep(old(State()), reportedMime)
    {
      var r := encoder.value;
      var mime := if reportedMime != "" then reportedMime else "video/" + r.format;
      blob := Some(Blob(Flatten(r.chunks), mime));
      encoder := Some(r.(stopPending := false));
      StopAllTracks();
      status := Preview;
      time := 0;
    }

    /** `reset`. */
    method Reset()
      modifies this
      ensures State() == ResetStep(old(State()))
    {
      blob := None;
      status := Idle;
      time := 0;
      error := "";
    }

    /** One run of `draw` for a source frame of `srcW`×`srcH`. */
    method DrawFrame(srcW: nat, srcH: nat) returns (f: Frame)
      modifies this
      ensures f == DrawOutput(old(State()), srcW, srcH)
      ensures State() == DrawStep(old(State()))
    {
      if !videoHeld {
        return NotRunning;
      }
      f := Drawn(Letterbox(surface.width, surface.height, srcW, srcH));
      frameHeld := true;
    }
  }
}

=== FILE: session.dfy ===
/**
 * The recording engine of `useScreenRecorder` as a state machine over one
 * value: the settings, the React state (`status`, `isPaused`, `time`,
 * `error`, `recordedBlob`) and what the refs hold (the MediaRecorder with its
 * chunk buffer, the combined stream, the hidden video, the pending animation
 * frame, the timer). Each command and each browser callback is a step
 * function; `Recorder.ScreenRecorder` performs the same steps on fields.
 *
 * Browser objects are abstracted: a stream is its list of tracks, a track is
 * live until something stops it, the MediaRecorder is its `state` plus what
 * its handlers captured, and the outcomes of the asynchronous browser calls
 * are inputs.
 */
module Session {
  import opened Wrappers
  import opened Media
  import opened MediaConfig
  import opened Compositor

  datatype Status = Idle | Recording | Paused | Preview

  /** The MediaRecorder's own `state`: 'inactive', 'recording' or 'paused'. */
  datatype EncoderState = Inactive | Running | Suspended

  const FailedToStart := "Failed to start recording."
  const MicWarning := "Microphone access denied. Recording screen only."

  /** The four settings the popup edits. */
  datatype Settings = Settings(audioEnabled: bool, resolution: string, frameRate: nat, outputFormat: string)

  /**
   * The MediaRecorder in `mediaRecorderRef`: its state, the mime type and
   * bitrate it was created with, the output format and the chunk buffer its
   * handlers captured, whether its `stop` event is still to come after a
   * call to `stop()`, and the screen video track whose `onended` handler
   * holds this recorder (`None` until the handler is attached).
   */
  datatype Encoder = Encoder(state: EncoderState, mime: string, bitrate: nat, format: string,
                             chunks: seq<Chunk>, stopPending: bool, endTrack: Option<Track>)

  /** The canvas the draw loop paints. */
  datatype Surface = Surface(width: nat, height: nat)

  /**
   * What the browser answers during `startRecording`: the screen stream's
   * tracks (`None` when `getDisplayMedia` rejects), the microphone stream's
   * tracks (`None` when `getUserMedia` rejects; asked only when audio is
   * enabled), the tracks of `canvas.captureStream`, `MediaRecorder.isTypeSupported`,
   * and whether `video.play()` or `new MediaRecorder(...)` throws.
   */
  datatype Acquisition = Acquisition(
    screen: Option<seq<Track>>,
    mic: Option<seq<Track>>,
    canvas: seq<Track>,
    supported: string -> bool,
    playbackFails: bool,
    encoderFails: bool)

  /**
   * The whole engine. `encoder` is `mediaRecorderRef` (`None` while null);
   * `stream`, `videoHeld` and `frameHeld` say what `streamRef`,
   * `hiddenVideoRef` and `animationFrameRef` hold; `timerActive` that the
   * one-second interval runs; `live` the tracks acquired and not stopped.
   */
  datatype Engine = Engine(
    settings: Settings,
    status: Status, isPaused: bool, time: nat, error: string, blob: Option<Blob>,
    encoder: Option<Encoder>,
    stream: Option<seq<Track>>, videoHeld: bool, frameHeld: bool, timerActive: bool,
    surface: Surface, live: set<Track>)

  /** The hook's initial state: idle, 1080p at 60 fps, webm, microphone off, nothing held. */
  function Initial(): Engine
  {
    Engine(Settings(false, "1080p", 60, "webm"),
           Idle, false, 0, "", None,
           None,
           None, false, false, false,
           Surface(0, 0), {})
  }

  /** The settings setters: they change the settings only. */
  function ConfigureStep(e: Engine, s: Settings): Engine
  {
    e.(settings := s)
  }

  /**
   * `startRecording`, following the hook's order of effects and its four
   * failure points: the screen request, `video.play()`, `new MediaRecorder`,
   * and installing `onended` on the screen's first video track, which throws
   * when the screen stream has none.
   */
  function StartStep(e: Engine, a: Acquisition): Engine
  {
    var cleared := BeginStart(e);
    if a.screen.None? then FailStart(cleared)
    else
      var acquired := Acquire(cleared, a);
      if a.playbackFails then FailStart(acquired)
      else
        var mixed := Mix(acquired, a);
        if a.encoderFails then FailStart(mixed)
        else
          var installed := InstallEncoder(mixed, a);
          if !HasVideoTrack(a.screen.value) then FailStart(installed)
          else Launch(installed, OfKind(a.screen.value, Video)[0])
  }

  /** Start first clears the error, the blob and the paused flag. */
  function BeginStart(e: Engine): Engine
  {
    e.(error := "", blob := None, isPaused := false)
  }

  /** The start attempt's `catch`: idle, with the failure message. */
  function FailStart(e: Engine): Engine
  {
    e.(error := FailedToStart, status := Idle)
  }

  /** The microphone stream the session uses: asked for only when audio is enabled. */
  function MicUsed(e: Engine, a: Acquisition): Option<seq<Track>>
  {
    if e.settings.audioEnabled then a.mic else None
  }

  /** The screen (and microphone) streams were obtained; the canvas is sized and the hidden video holds the screen. */
  function Acquire(e: Engine, a: Acquisition): Engine
    requires a.screen.Some?
  {
    var mic := MicUsed(e, a);
    var config := GetConstraints(e.settings.resolution, e.settings.frameRate);
    e.(live := e.live + TrackSet(a.screen.value) + (if mic.Some? then TrackSet(mic.value) else {}),
       error := if e.settings.audioEnabled && a.mic.None? then MicWarning else e.error,
       surface := Surface(config.width, config.height),
       videoHeld := true)
  }

  /** The draw loop runs, the combined stream is held, and the mime type is negotiated. */
  function Mix(e: Engine, a: Acquisition): Engine
    requires a.screen.Some?
  {
    Negotiate(Combine(e.(frameHeld := true), a), a)
  }

  /** The canvas is captured and its video joins the audio in the combined stream. */
  function Combine(e: Engine, a: Acquisition): Engine
    requires a.screen.Some?
  {
    e.(live := e.live + TrackSet(a.canvas),
       stream := Some(Combined(a.canvas, a.screen.value, MicUsed(e, a))))
  }

  /** The mime type is negotiated; a format that falls back raises the warning. */
  function Negotiate(e: Engine, a: Acquisition): Engine
  {
    if SelectMime(e.settings.outputFormat, a.supported).warned then e.(error := Mp4Warning) else e
  }

  /** Every browser call of a start succeeds and the screen stream has a video track: the start records. */
  predicate StartCompletes(a: Acquisition)
  {
    a.screen.Some? && !a.playbackFails && !a.encoderFails && HasVideoTrack(a.screen.value)
  }

  /** The screen stream has a first video track, whose `onended` the start installs. */
  predicate HasVideoTrack(screen: seq<Track>)
  {
    |OfKind(screen, Video)| > 0
  }

  /**
   * The encoder is created with the negotiated mime type and the resolution's
   * bitrate and stored in `mediaRecorderRef`, not yet started, with an empty
   * buffer and the session's format captured by its handlers.
   */
  function InstallEncoder(e: Engine, a: Acquisition): Engine
  {
    var mime := SelectMime(e.settings.outputFormat, a.supported).mime;
    var bitrate := GetConstraints(e.settings.resolution, e.settings.frameRate).bitrate;
    e.(encoder := Some(Encoder(Inactive, mime, bitrate, e.settings.outputFormat, [], false, None)))
  }

  /**
   * The end-of-share handler is attached to the screen's video track `t`,
   * holding this encoder; then the encoder is started and the clock starts
   * from 0.
   */
  function Launch(e: Engine, t: Track): Engine
    requires e.encoder.Some?
  {
    e.(encoder := Some(e.encoder.value.(state := Running, endTrack := Some(t))),
       status := Recording, time := 0, timerActive := true)
  }

  /** The encoder is recording or paused: `state !== 'inactive'`. */
  predicate EncoderActive(e: Engine)
  {
    e.encoder.Some? && e.encoder.value.state != Inactive
  }

  /** `stop()` on the encoder: inactive, with its stop event to come. */
  function Stopped(e: Engine): Engine
    requires e.encoder.Some?
  {
    e.(encoder := Some(e.encoder.value.(state := Inactive, stopPending := true)))
  }

  /** `stopRecording`: stops an active encoder and the timer; otherwise nothing. */
  function StopStep(e: Engine): Engine
  {
    if EncoderActive(e) then Stopped(e).(timerActive := false, isPaused := false) else e
  }

  /**
   * The screen video track `t` ends. Its `onended` handler holds the encoder
   * of the start that attached it, so it acts only when that encoder is the
   * current one and still active: it stops it, and nothing else. The end of
   * any other track, an earlier session's share among them, changes nothing.
   */
  predicate EndsCurrentShare(e: Engine, t: Track)
  {
    e.encoder.Some? && e.encoder.value.endTrack == Some(t)
  }

  function ScreenEndedStep(e: Engine, t: Track): Engine
  {
    if EndsCurrentShare(e, t) && EncoderActive(e) then Stopped(e) else e
  }

  /**
   * The encoder stops by itself after a runtime error: an active encoder goes
   * inactive and its stop event is due. The hook has no `onerror`, so nothing
   * else changes until that stop event: the timer keeps running and
   * `isPaused` keeps its value.
   */
  function EncoderFaultStep(e: Engine): Engine
  {
    if EncoderActive(e) then Stopped(e) else e
  }

  /** The encoder is recording: `state === 'recording'`. */
  predicate EncoderRunning(e: Engine)
  {
    e.encoder.Some? && e.encoder.value.state == Running
  }

  /** The encoder is paused: `state === 'paused'`. */
  predicate EncoderSuspended(e: Engine)
  {
    e.encoder.Some? && e.encoder.value.state == Suspended
  }

  /** `pauseRecording`: acts only on a recording encoder. */
  function PauseStep(e: Engine): Engine
  {
    if EncoderRunning(e) then
      e.(encoder := Some(e.encoder.value.(state := Suspended)), timerActive := false, isPaused := true, status := Paused)
    else e
  }

  /** `resumeRecording`: acts only on a paused encoder; `time` is kept. */
  function ResumeStep(e: Engine): Engine
  {
    if EncoderSuspended(e) then
      e.(encoder := Some(e.encoder.value.(state := Running)), timerActive := true, isPaused := false, status := Recording)
    else e
  }

  /** One tick of the running interval. */
  function TickStep(e: Engine): Engine
    requires e.timerActive
  {
    e.(time := e.time + 1)
  }

  /** The encoder's `ondataavailable`: only a chunk of positive size is buffered. */
  function DataStep(e: Engine, c: Chunk): Engine
    requires e.encoder.Some?
  {
    var r := e.encoder.value;
    if |c| > 0 then e.(encoder := Some(r.(chunks := r.chunks + [c]))) else e
  }

  /** `stopAllTracks`: stops the combined stream's tracks and drops every held reference. */
  function ReleaseStep(e: Engine): Engine
  {
    e.(live := if e.stream.Some? then e.live - TrackSet(e.stream.value) else e.live,
       stream := None, videoHeld := false, frameHeld := false, timerActive := false)
  }

  /** A stop event is due. */
  predicate StopDue(e: Engine)
  {
    e.encoder.Some? && e.encoder.value.stopPending
  }

  /** The encoder's `onstop`: builds the blob, releases everything, shows the preview. */
  function OnStopStep(e: Engine, reportedMime: string): Engine
    requires StopDue(e)
  {
    var r := e.encoder.value;
    ReleaseStep(e.(blob := Some(MakeBlob(r.chunks, reportedMime, r.format)),
                   encoder := Some(r.(stopPending := false)))).(
      status := Preview, time := 0)
  }

  /** `reset`. */
  function ResetStep(e: Engine): Engine
  {
    e.(blob := None, status := Idle, time := 0, error := "")
  }

  /** What one run of `draw` paints. */
  datatype Frame =
    | NotRunning                      // the guard found no hidden video: the loop ends
    | Drawn(image: Option<DrawRect>)  // black fill, then the letterboxed frame if the source has a size

  /** One run of `draw` for a source of `srcW`×`srcH`. */
  function DrawOutput(e: Engine, srcW: nat, srcH: nat): Frame
  {
    if e.videoHeld then Drawn(Letterbox(e.surface.width, e.surface.height, srcW, srcH)) else NotRunning
  }

  /** The state after one run of `draw`: it schedules the next frame only while the hidden video is held. */
  function DrawStep(e: Engine): Engine
  {
    if e.videoHeld then e.(frameHeld := true) else e
  }

  // ---------------------------------------------------------------------
  // Invariant

  /** A session is under way: the encoder is recording or paused. */
  predicate Engaged(e: Engine)
  {
    EncoderRunning(e) || EncoderSuspended(e)
  }

  /**
   * How the React state follows the encoder: a recording encoder means status
   * `recording` with the timer running; a paused one status `paused` with the
   * timer stopped; a pending stop event belongs to an inactive encoder; and
   * the timer runs only while the encoder records or its stop event is due.
   */
  predicate Consistent(e: Engine)
  {
    && (EncoderRunning(e) ==> e.status == Recording && e.timerActive && !e.isPaused)
    && (EncoderSuspended(e) ==> e.status == Paused && !e.timerActive && e.isPaused)
    && (StopDue(e) ==> e.encoder.value.state == Inactive)
    && (e.timerActive ==> EncoderRunning(e) || StopDue(e))
  }

  lemma InitialConsistent()
    ensures Consistent(Initial()) && !Engaged(Initial())
    ensures Initial().status == Idle && Initial().time == 0 && Initial().error == "" && Initial().blob == None
  {
  }

  /** Start keeps the invariant when no session is under way and no stop event is pending. */
  lemma StartKeepsConsistent(e: Engine, a: Acquisition)
    requires Consistent(e) && !Engaged(e) && !StopDue(e)
    ensures Consistent(StartStep(e, a))
  {
    if StartCompletes(a) {
      assert StartStep(e, a).encoder.value.state == Running;
    }
  }

  /** The commands and callbacks of a session keep the invariant. */
  lemma StepsKeepConsistent(e: Engine, t: Track, c: Chunk, mime: string)
    requires Consistent(e)
    ensures Consistent(StopStep(e)) && Consistent(ScreenEndedStep(e, t)) && Consistent(EncoderFaultStep(e))
    ensures Consistent(PauseStep(e)) && Consistent(ResumeStep(e))
    ensures e.timerActive ==> Consistent(TickStep(e))
    ensures e.encoder.Some? ==> Consistent(DataStep(e, c))
    ensures Consistent(DrawStep(e))
    ensures StopDue(e) ==> Consistent(OnStopStep(e, mime))
  {
  }

  /** Reset keeps the invariant outside a session; during one it would leave the encoder recording while the status says idle. */
  lemma ResetKeepsConsistent(e: Engine)
    requires Consistent(e) && !Engaged(e)
    ensures Consistent(ResetStep(e))
  {
  }

  // ---------------------------------------------------------------------
  // Start

  /** A start whose screen request is refused: idle with the failure message; nothing acquired. */
  lemma StartScreenDenied(e: Engine, a: Acquisition)
    requires a.screen.None?
    ensures var s := StartStep(e, a);
      s.status == Idle && s.error == FailedToStart && s.blob == None && !s.isPaused &&
      s.live == e.live && s.stream == e.stream && s.encoder == e.encoder &&
      s.videoHeld == e.videoHeld && s.time == e.time
  {
  }

  /**
   * A successful start: recording from 0 with the timer running, a fresh
   * encoder with an empty buffer, the negotiated mime type and the
   * resolution's bitrate, the combined stream of canvas video, screen audio
   * and (if obtained) microphone audio, and a canvas of the resolution's size;
   * the error is the latest warning raised, if any.
   */
  lemma StartSucceeds(e: Engine, a: Acquisition)
    requires StartCompletes(a)
    ensures var s := StartStep(e, a);
      var choice := SelectMime(e.settings.outputFormat, a.supported);
      var config := GetConstraints(e.settings.resolution, e.settings.frameRate);
      && s.status == Recording && s.time == 0 && s.timerActive && !s.isPaused && s.blob == None
      && s.encoder == Some(Encoder(Running, choice.mime, config.bitrate, e.settings.outputFormat, [], false,
                                   Some(OfKind(a.screen.value, Video)[0])))
      && s.stream == Some(Combined(a.canvas, a.screen.value, MicUsed(e, a)))
      && s.surface == Surface(config.width, config.height)
      && s.videoHeld && s.frameHeld
      && s.error == (if choice.warned then Mp4Warning
                     else if e.settings.audioEnabled && a.mic.None? then MicWarning
                     else "")
  {
  }

  /** A refused microphone does not abort the start: the session records the screen's audio only. */
  lemma MicDeniedStillRecords(e: Engine, a: Acquisition)
    requires e.settings.audioEnabled && a.mic.None?
    requires StartCompletes(a)
    requires !SelectMime(e.settings.outputFormat, a.supported).warned
    ensures StartStep(e, a).status == Recording
    ensures StartStep(e, a).error == MicWarning
    ensures forall t :: t in StartStep(e, a).stream.value && t.kind == Audio ==> t in a.screen.value
  {
  }

  /**
   * A start that fails after the screen was acquired returns to idle with the
   * failure message but keeps what it had already taken: the screen's tracks
   * and the hidden video, and (when the encoder could not be created) the
   * combined stream and the draw loop.
   */
  lemma StartLateFailureKeepsReferences(e: Engine, a: Acquisition)
    requires a.screen.Some? && (a.playbackFails || a.encoderFails)
    ensures var s := StartStep(e, a);
      s.status == Idle && s.error == FailedToStart && s.videoHeld &&
      TrackSet(a.screen.value) <= s.live && s.encoder == e.encoder &&
      (!a.playbackFails ==> s.stream.Some? && s.frameHeld)
  {
  }

  /**
   * A screen stream without a video track gets through every other step, but
   * installing `onended` on its first video track throws: the start reports
   * the failure and returns to idle, leaving the fresh encoder, never started,
   * in `mediaRecorderRef` and the capture, the stream and the draw loop held.
   */
  lemma StartWithoutScreenVideoFails(e: Engine, a: Acquisition)
    requires a.screen.Some? && !a.playbackFails && !a.encoderFails && !HasVideoTrack(a.screen.value)
    ensures var s := StartStep(e, a);
      var choice := SelectMime(e.settings.outputFormat, a.supported);
      var config := GetConstraints(e.settings.resolution, e.settings.frameRate);
      && s.status == Idle && s.error == FailedToStart && s.timerActive == e.timerActive
      && s.encoder == Some(Encoder(Inactive, choice.mime, config.bitrate, e.settings.outputFormat, [], false, None))
      && s.stream == Some(Combined(a.canvas, a.screen.value, MicUsed(e, a)))
      && s.videoHeld && s.frameHeld && TrackSet(a.screen.value) <= s.live
  {
  }

  // ---------------------------------------------------------------------
  // Pause, resume, tick

  /** Pause on a recording session: paused, timer stopped, time frozen. */
  lemma PauseFreezesTime(e: Engine)
    requires EncoderRunning(e)
    ensures var p := PauseStep(e);
      p.status == Paused && p.isPaused && !p.timerActive && p.time == e.time && EncoderSuspended(p)
  {
  }

  /** Pause then resume returns a consistent recording session to exactly where it was. */
  lemma PauseResumeRoundTrip(e: Engine)
    requires Consistent(e) && EncoderRunning(e)
    ensures ResumeStep(PauseStep(e)) == e
  {
  }

  /** Outside their state, pause and resume change nothing. */
  lemma PauseResumeGuards(e: Engine)
    ensures !EncoderRunning(e) ==> PauseStep(e) == e
    ensures !EncoderSuspended(e) ==> ResumeStep(e) == e
  {
  }

  /** Each tick adds exactly one second and touches nothing else. */
  lemma TickAddsOne(e: Engine)
    requires e.timerActive
    ensures TickStep(e).time == e.time + 1 && TickStep(e).(time := e.time) == e
  {
  }

  // ---------------------------------------------------------------------
  // Events during a session

  /** The callbacks that can arrive while a session is under way. */
  datatype Event = Tick | Pause | Resume | Data(chunk: Chunk)

  /** One callback. A tick happens only while the interval runs. */
  function Apply(e: Engine, ev: Event): Engine
    requires e.encoder.Some?
  {
    match ev
    case Tick => if e.timerActive then TickStep(e) else e
    case Pause => PauseStep(e)
    case Resume => ResumeStep(e)
    case Data(c) => DataStep(e, c)
  }

  lemma ApplyKeepsEncoder(e: Engine, ev: Event)
    requires e.encoder.Some?
    ensures Apply(e, ev).encoder.Some?
    ensures Apply(e, ev).encoder.value.chunks ==
      e.encoder.value.chunks + KeepNonEmpty(if ev.Data? then [ev.chunk] else [])
    ensures Apply(e, ev).encoder.value.format == e.encoder.value.format
  {
    if ev.Data? {
      assert [ev.chunk][1..] == [];
    }
  }

  /** Callbacks applied in order. */
  function Run(e: Engine, evs: seq<Event>): (r: Engine)
    requires e.encoder.Some?
    ensures r.encoder.Some?
    decreases |evs|
  {
    if evs == [] then e
    else
      ApplyKeepsEncoder(e, evs[0]);
      Run(Apply(e, evs[0]), evs[1..])
  }

  /** The chunks carried by the data events, in order. */
  function Arrivals(evs: seq<Event>): seq<Chunk>
  {
    if evs == [] then []
    else (if evs[0].Data? then [evs[0].chunk] else []) + Arrivals(evs[1..])
  }

  /** `r` is a later state of the same consistent, ongoing session as `e`: the held resources are the same and time has not gone back. */
  predicate SameSession(e: Engine, r: Engine)
  {
    && Consistent(r) && Engaged(r) && !StopDue(r)
    && r.time >= e.time
    && r.stream == e.stream && r.live == e.live && r.videoHeld == e.videoHeld && r.blob == e.blob
    && e.encoder.Some? && r.encoder.value.endTrack == e.encoder.value.endTrack
  }

  lemma ApplyDuringSession(e: Engine, ev: Event)
    requires Consistent(e) && Engaged(e)
    ensures SameSession(e, Apply(e, ev))
  {
  }

  /**
   * Through any sequence of ticks, pauses, resumes and data events a session
   * stays consistent and under way, its elapsed time never decreases and the
   * held resources are unchanged.
   */
  lemma {:induction false} RunDuringSession(e: Engine, evs: seq<Event>)
    requires Consistent(e) && Engaged(e)
    decreases |evs|
    ensures SameSession(e, Run(e, evs))
  {
    if evs != [] {
      ApplyDuringSession(e, evs[0]);
      RunDuringSession(Apply(e, evs[0]), evs[1..]);
    }
  }

  /** The chunk buffer grows by exactly the non-empty arrivals, in arrival order; the captured format stays. */
  lemma {:induction false} RunBuffersNonEmptyInOrder(e: Engine, evs: seq<Event>)
    requires e.encoder.Some?
    decreases |evs|
    ensures Run(e, evs).encoder.value.chunks == e.encoder.value.chunks + KeepNonEmpty(Arrivals(evs))
    ensures Run(e, evs).encoder.value.format == e.encoder.value.format
  {
    var buf := e.encoder.value.chunks;
    if evs == [] {
      assert KeepNonEmpty(Arrivals(evs)) == [];
      assert buf + [] == buf;
    } else {
      var next := Apply(e, evs[0]);
      var first := KeepNonEmpty(if evs[0].Data? then [evs[0].chunk] else []);
      ApplyKeepsEncoder(e, evs[0]);
      assert next.encoder.value.chunks == buf + first;
      RunBuffersNonEmptyInOrder(next, evs[1..]);
      ArrivalsCons(evs);
      assert Run(e, evs).encoder.value.chunks == (buf + first) + KeepNonEmpty(Arrivals(evs[1..]));
      ConcatAssoc(buf, first, KeepNonEmpty(Arrivals(evs[1..])));
    }
  }

  lemma ConcatAssoc<T>(x: seq<T>, y: seq<T>, z: seq<T>)
    ensures (x + y) + z == x + (y + z)
  {
  }

  /** The non-empty arrivals of a sequence of events are those of its first event followed by those of the rest. */
  lemma ArrivalsCons(evs: seq<Event>)
    requires evs != []
    ensures KeepNonEmpty(Arrivals(evs)) ==
      KeepNonEmpty(if evs[0].Data? then [evs[0].chunk] else []) + KeepNonEmpty(Arrivals(evs[1..]))
  {
    KeepNonEmptyConcat(if evs[0].Data? then [evs[0].chunk] else [], Arrivals(evs[1..]));
  }

  // ---------------------------------------------------------------------
  // Stop, revocation, release

  /** A second stop does nothing: the first left the encoder inactive. */
  lemma StopIdempotent(e: Engine, t: Track)
    ensures StopStep(StopStep(e)) == StopStep(e)
    ensures ScreenEndedStep(StopStep(e), t) == StopStep(e)
    ensures EndsCurrentShare(e, t) ==> StopStep(ScreenEndedStep(e, t)) == ScreenEndedStep(e, t)
  {
  }

  /**
   * The user ending the screen share leads to the same state as the Stop
   * button once the encoder's stop event has been handled, except that
   * `isPaused` keeps its value: the revocation handler does not clear it.
   */
  lemma RevocationMatchesStop(e: Engine, t: Track, mime: string)
    requires EncoderActive(e) && EndsCurrentShare(e, t)
    ensures StopDue(StopStep(e)) && StopDue(ScreenEndedStep(e, t))
    ensures OnStopStep(ScreenEndedStep(e, t), mime) == OnStopStep(StopStep(e), mime).(isPaused := e.isPaused)
    ensures Consistent(e) && EncoderRunning(e) ==>
      OnStopStep(ScreenEndedStep(e, t), mime) == OnStopStep(StopStep(e), mime)
  {
  }

  /**
   * An encoder that stops after a runtime error still leads to a preview: the
   * hook's stop handler builds the blob from the buffered chunks and releases
   * everything, with the same final state as the Stop button except `isPaused`.
   */
  lemma EncoderFaultLeadsToPreview(e: Engine, mime: string)
    requires EncoderActive(e)
    ensures StopDue(EncoderFaultStep(e))
    ensures var f := OnStopStep(EncoderFaultStep(e), mime);
      && f.status == Preview && f.time == 0
      && f.blob == Some(MakeBlob(e.encoder.value.chunks, mime, e.encoder.value.format))
      && f.stream == None && !f.videoHeld && !f.frameHeld && !f.timerActive
      && f.isPaused == e.isPaused
      && f == OnStopStep(StopStep(e), mime).(isPaused := e.isPaused)
  {
    OnStopProducesPreview(EncoderFaultStep(e), mime);
  }

  /** Ending a track other than the one the current encoder's handler is attached to changes nothing. */
  lemma OtherTrackEndedChangesNothing(e: Engine, t: Track)
    requires !EndsCurrentShare(e, t)
    ensures ScreenEndedStep(e, t) == e
  {
  }

  /**
   * During a session that started successfully, after any callbacks, the end
   * of the session's own screen video track stops the encoder, while the end
   * of a track outside the session's screen stream, such as the still-live
   * share of an earlier session, changes nothing.
   */
  lemma {:induction false} OnlyOwnShareEndsSession(e: Engine, a: Acquisition, evs: seq<Event>, t: Track)
    requires Consistent(e) && !Engaged(e) && !StopDue(e)
    requires StartCompletes(a)
    ensures StartStep(e, a).encoder.Some?
    ensures var r := Run(StartStep(e, a), evs);
      t == OfKind(a.screen.value, Video)[0] ==> StopDue(ScreenEndedStep(r, t)) && !Engaged(ScreenEndedStep(r, t))
    ensures t !in a.screen.value ==> ScreenEndedStep(Run(StartStep(e, a), evs), t) == Run(StartStep(e, a), evs)
  {
    var s := StartStep(e, a);
    StartSucceeds(e, a);
    StartKeepsConsistent(e, a);
    RunDuringSession(s, evs);
    var v := OfKind(a.screen.value, Video);
    assert v[0] in v;
    if t !in a.screen.value {
      assert t != v[0];
    }
  }

  /** After release nothing is held, and releasing again changes nothing. */
  lemma ReleaseIdempotent(e: Engine)
    ensures var r := ReleaseStep(e);
      r.stream == None && !r.videoHeld && !r.frameHeld && !r.timerActive &&
      ReleaseStep(r) == r
  {
  }

  /** Release ends the draw loop: the next run of `draw` paints nothing and schedules nothing. */
  lemma ReleaseEndsDrawLoop(e: Engine, srcW: nat, srcH: nat)
    ensures DrawOutput(ReleaseStep(e), srcW, srcH) == NotRunning
    ensures DrawStep(ReleaseStep(e)) == ReleaseStep(e)
  {
  }

  /** Release stops every track of the combined stream and no other. */
  lemma ReleaseStopsCombinedTracks(e: Engine)
    requires e.stream.Some?
    ensures ReleaseStep(e).live == e.live - TrackSet(e.stream.value)
    ensures forall t :: t in e.live && t !in e.stream.value ==> t in ReleaseStep(e).live
  {
  }

  /**
   * The encoder's stop event: the preview shows a blob of every buffered byte
   * in order, typed by the encoder (or by the session's format), time is 0
   * and everything is released.
   */
  lemma OnStopProducesPreview(e: Engine, mime: string)
    requires StopDue(e)
    ensures var s := OnStopStep(e, mime);
      && s.status == Preview && s.time == 0 && !StopDue(s)
      && s.blob == Some(MakeBlob(e.encoder.value.chunks, mime, e.encoder.value.format))
      && s.blob.value.data == Flatten(e.encoder.value.chunks)
      && s.stream == None && !s.videoHeld && !s.frameHeld && !s.timerActive
  {
  }

  /**
   * After `stop()` the encoder stays inactive with its stop event due: pause
   * and resume do nothing, and ticks and data change neither the held stream
   * nor the live tracks.
   */
  lemma ApplyAfterStop(e: Engine, ev: Event)
    requires StopDue(e) && e.encoder.value.state == Inactive
    ensures var n := Apply(e, ev);
      StopDue(n) && n.encoder.value.state == Inactive && n.stream == e.stream && n.live == e.live
  {
  }

  lemma {:induction false} RunAfterStop(e: Engine, post: seq<Event>)
    requires StopDue(e) && e.encoder.value.state == Inactive
    decreases |post|
    ensures var n := Run(e, post);
      StopDue(n) && n.encoder.value.state == Inactive && n.stream == e.stream && n.live == e.live
  {
    if post != [] {
      ApplyAfterStop(e, post[0]);
      RunAfterStop(Apply(e, post[0]), post[1..]);
    }
  }

  /** The chunks carried by two runs of events are those of the first followed by those of the second. */
  lemma {:induction false} ArrivalsConcat(xs: seq<Event>, ys: seq<Event>)
    decreases |xs|
    ensures Arrivals(xs + ys) == Arrivals(xs) + Arrivals(ys)
  {
    if xs == [] {
      assert xs + ys == ys;
    } else {
      assert (xs + ys)[1..] == xs[1..] + ys;
      ArrivalsConcat(xs[1..], ys);
      ConcatAssoc(if xs[0].Data? then [xs[0].chunk] else [], Arrivals(xs[1..]), Arrivals(ys));
    }
  }

  /**
   * Stopping a session under way, then the events that arrive before its stop
   * event (the encoder's final `dataavailable` among them), then the stop
   * event: the preview's blob is the buffer followed by the non-empty late
   * chunks, and everything is released.
   */
  lemma StopThenStopEvent(r: Engine, post: seq<Event>, mime: string)
    requires Engaged(r)
    ensures StopDue(Run(StopStep(r), post))
    ensures var f := OnStopStep(Run(StopStep(r), post), mime);
      var all := r.encoder.value.chunks + KeepNonEmpty(Arrivals(post));
      && f.status == Preview && f.time == 0
      && f.blob == Some(MakeBlob(all, mime, r.encoder.value.format))
      && f.blob.value.data == Flatten(all)
      && f.stream == None && !f.videoHeld && !f.frameHeld && !f.timerActive
  {
    var x := StopStep(r);
    RunAfterStop(x, post);
    RunBuffersNonEmptyInOrder(x, post);
    OnStopProducesPreview(Run(x, post), mime);
  }

  /**
   * A whole session: a successful start, any callbacks, the Stop button, any
   * callbacks before the stop event, then the stop event. The preview's blob
   * is the concatenation of all data that arrived, before and after the stop,
   * empty chunks contributing nothing, typed by the encoder or by the output
   * format of the start.
   */
  lemma {:induction false} SessionBlobIsAllData(e: Engine, a: Acquisition, evs: seq<Event>, post: seq<Event>, mime: string)
    requires Consistent(e) && !Engaged(e) && !StopDue(e)
    requires StartCompletes(a)
    ensures StartStep(e, a).encoder.Some?
    ensures StopDue(Run(StopStep(Run(StartStep(e, a), evs)), post))
    ensures var f := OnStopStep(Run(StopStep(Run(StartStep(e, a), evs)), post), mime);
      && f.status == Preview && f.time == 0
      && f.blob == Some(MakeBlob(KeepNonEmpty(Arrivals(evs + post)), mime, e.settings.outputFormat))
      && f.blob.value.data == Flatten(Arrivals(evs + post))
      && f.stream == None && !f.videoHeld && !f.frameHeld && !f.timerActive
  {
    var s := StartStep(e, a);
    StartSucceeds(e, a);
    StartKeepsConsistent(e, a);
    RunDuringSession(s, evs);
    RunBuffersNonEmptyInOrder(s, evs);
    var r := Run(s, evs);
    assert r.encoder.value.chunks == KeepNonEmpty(Arrivals(evs)) by {
      assert s.encoder.value.chunks == [];
    }
    StopThenStopEvent(r, post, mime);
    ArrivalsConcat(evs, post);
    KeepNonEmptyConcat(Arrivals(evs), Arrivals(post));
    FlattenKeepNonEmpty(Arrivals(evs + post));
  }

  /** A live track outside the combined stream is still live after stop, late events and the stop event. */
  lemma StopKeepsOtherTracks(r: Engine, post: seq<Event>, mime: string, t: Track)
    requires Engaged(r) && r.stream.Some? && t in r.live && t !in r.stream.value
    ensures StopDue(Run(StopStep(r), post))
    ensures t in OnStopStep(Run(StopStep(r), post), mime).live
  {
    var x := StopStep(r);
    RunAfterStop(x, post);
    ReleaseStopsCombinedTracks(Run(x, post));
  }

  /**
   * The screen's own video track stays live after the session is released:
   * the combined stream carries the canvas's video instead of it.
   */
  lemma ScreenVideoOutlivesRelease(e: Engine, a: Acquisition, evs: seq<Event>, post: seq<Event>, mime: string, t: Track)
    requires Consistent(e) && !Engaged(e) && !StopDue(e)
    requires StartCompletes(a)
    requires t in a.screen.value && t.kind == Video && t !in a.canvas
    ensures StartStep(e, a).encoder.Some?
    ensures StopDue(Run(StopStep(Run(StartStep(e, a), evs)), post))
    ensures t in OnStopStep(Run(StopStep(Run(StartStep(e, a), evs)), post), mime).live
  {
    var s := StartStep(e, a);
    StartSucceeds(e, a);
    StartKeepsConsistent(e, a);
    assert t in s.live;
    assert t !in s.stream.value;
    RunDuringSession(s, evs);
    StopKeepsOtherTracks(Run(s, evs), post, mime, t);
  }

  // ---------------------------------------------------------------------
  // Reset

  /** Reset yields idle with time 0, no blob and no error, and a second reset changes nothing. */
  lemma ResetClears(e: Engine)
    ensures var r := ResetStep(e);
      r.status == Idle && r.time == 0 && r.blob == None && r.error == ""
    ensures ResetStep(ResetStep(e)) == ResetStep(e)
  {
  }
}

=== FILE: time_format.dfy ===
/**
 * The dock's `formatTime`: whole seconds as `m:ss`, minutes unpadded and
 * seconds left-padded with '0' to two digits. `ParseTime` reads such a label
 * back, and the two are proved inverse.
 */
module TimeFormat {
  import opened Wrappers

  predicate IsDigit(c: char)
  {
    '0' <= c <= '9'
  }

  predicate AllDigits(s: string)
  {
    forall i :: 0 <= i < |s| ==> IsDigit(s[i])
  }

  function DigitChar(d: nat): (c: char)
    requires d < 10
    ensures IsDigit(c) && c as int - '0' as int == d
  {
    ('0' as int + d) as char
  }

  function DigitValue(c: char): nat
    requires IsDigit(c)
  {
    c as int - '0' as int
  }

  /** `n.toString()` for a non-negative integer: its decimal digits, without leading zeros. */
  function Decimal(n: nat): (s: string)
    ensures |s| >= 1 && AllDigits(s)
    ensures n < 10 <==> |s| == 1
    ensures n > 0 ==> s[0] != '0'
  {
    if n < 10 then [DigitChar(n)] else Decimal(n / 10) + [DigitChar(n % 10)]
  }

  /** The number a string of decimal digits denotes. */
  function ValueOf(s: string): nat
    requires AllDigits(s)
  {
    if s == [] then 0 else ValueOf(s[..|s| - 1]) * 10 + DigitValue(s[|s| - 1])
  }

  /** `s.padStart(2, '0')`. */
  function PadStart2(s: string): (r: string)
    ensures |s| >= 2 ==> r == s
    ensures |s| < 2 ==> |r| == 2 && r[2 - |s|..] == s && forall i :: 0 <= i < 2 - |s| ==> r[i] == '0'
    decreases 2 - |s|
  {
    if |s| >= 2 then s else PadStart2("0" + s)
  }

  /** `formatTime(seconds)`: `Math.floor(seconds / 60)`, a colon, then `seconds % 60` padded to two digits. */
  function FormatTime(seconds: nat): (t: string)
    ensures |t| >= 4 && t[|t| - 3] == ':'
    ensures AllDigits(t[..|t| - 3]) && AllDigits(t[|t| - 2..])
    ensures ValueOf(t[..|t| - 3]) == seconds / 60
    ensures ValueOf(t[|t| - 2..]) == seconds % 60
    ensures |t| == 4 || t[0] != '0'
  {
    var mins := Decimal(seconds / 60);
    var secs := PadStart2(Decimal(seconds % 60));
    DecimalRoundTrip(seconds / 60);
    PaddedSeconds(seconds % 60);
    var t := mins + ":" + secs;
    assert t[..|t| - 3] == mins;
    assert t[|t| - 2..] == secs;
    assert t[0] == mins[0];
    t
  }

  /** Reads an `m:ss` label: minutes digits, a colon, exactly two seconds digits. */
  function ParseTime(t: string): (r: Option<nat>)
    ensures r.Some? ==> |t| >= 4 && t[|t| - 3] == ':'
  {
    if |t| >= 4 && t[|t| - 3] == ':' && AllDigits(t[..|t| - 3]) && AllDigits(t[|t| - 2..])
    then Some(ValueOf(t[..|t| - 3]) * 60 + ValueOf(t[|t| - 2..]))
    else None
  }

  lemma {:induction false} DecimalRoundTrip(n: nat)
    ensures ValueOf(Decimal(n)) == n
  {
    if n >= 10 {
      var s := Decimal(n);
      assert s[..|s| - 1] == Decimal(n / 10);
      DecimalRoundTrip(n / 10);
    }
  }

  /** The seconds field: two digits denoting a value below 60. */
  lemma PaddedSeconds(secs: nat)
    requires secs < 60
    ensures |PadStart2(Decimal(secs))| == 2 && AllDigits(PadStart2(Decimal(secs)))
    ensures ValueOf(PadStart2(Decimal(secs))) == secs
  {
    var d := Decimal(secs);
    DecimalRoundTrip(secs);
    var p := PadStart2(d);
    if |d| == 1 {
      assert p == "0" + d;
      assert p[..1] == "0";
      assert ValueOf(p[..1]) == 0;
    } else {
      assert p == d;
    }
  }

  /** Reading back a formatted time gives the seconds: minutes * 60 + seconds is the input. */
  lemma FormatTimeRoundTrip(seconds: nat)
    ensures ParseTime(FormatTime(seconds)) == Some(seconds)
  {
    var t := FormatTime(seconds);
    var mins, secs := t[..|t| - 3], t[|t| - 2..];
    assert ParseTime(t) == Some(ValueOf(mins) * 60 + ValueOf(secs));
    assert ValueOf(mins) * 60 + ValueOf(secs) == seconds / 60 * 60 + seconds % 60;
  }

  /** Distinct elapsed times are shown as distinct labels. */
  lemma FormatTimeInjective(a: nat, b: nat)
    requires FormatTime(a) == FormatTime(b)
    ensures a == b
  {
    FormatTimeRoundTrip(a);
    FormatTimeRoundTrip(b);
  }

  lemma FormatTimeExamples()
    ensures FormatTime(0) == "0:00"
    ensures FormatTime(65) == "1:05"
    ensures FormatTime(600) == "10:00"
  {
  }
}

=== FILE: wrappers.dfy ===
/** Optional values: a JavaScript `null` reference or a rejected promise is `None`. */
module Wrappers {
  datatype Option<+T> = None | Some(value: T)
}
